=== FILE: README.md ===
# Drug cabinet back-end: frame codec, check sequence and order lifecycle in Dafny

This project models the core of a Node.js back-end that drives an automated
drug-dispensing cabinet over a TCP link to its PLC. It covers:

- **The frame codec** (`decimal.dfy`, `plc_types.dfy`, `frame_codec.dfy`,
  `status_codes.dfy`). This is the ASCII command frame
  `B00R<floor>C<position>Q<qty>L<colour><mode>T00N<running>D4500S<checksum>`
  and its two-digit checksum, with `createSimpleCommand` and the command and
  status tables. It also covers the status field of a reply (the text after
  the first `T`) and `interpretPlcResponse`.
- **The pre-dispense check sequence** `checkMachineStatusShared`
  (`check_sequence.dfy`). It checks the door, then the tray, then the shelf.
  It stops on the first failure, takes the dispense side from the tray's
  status, and then writes the dispense frame.
- **The PLC request handlers** `sendCommand`, `sendCommandM` and
  `sendCommandFromQueue` (`plc_service.dfy`). This is their payload
  validation, machine and socket lookup, command selection and error
  mapping.
- **The order lifecycle** (`order_lifecycle.dfy`, `confirmation.dfy`,
  `order_service.dfy`). This covers:
  - the status transition table;
  - prescription completion;
  - the stock guard;
  - the slot's unlock and lights-off frames;
  - the three confirmation loops: after `complete`, after `receive`, and in
    `received`;
  - `updateStatusOrderServicePending` and `received` assembled from these
    parts.
- **The order-building step of `createPresService`** (`pres_orders.dfy`).
  It filters the lines for the `ADD` cabinet, refuses a prescription already
  on file, parses the bin location and sorts by floor.

Everything is pure. The database is an immutable `Store` of orders,
prescription statuses and stock counts. The machine table and the open
sockets form a `Registry`.

Whatever the cabinet, the clock, the running-number service or the message
broker would supply is an input:
- a reply text, or its absence (a 5 s timeout);
- a sequence of probes, one per status check;
- a round budget standing in for the wall-clock deadline;
- whether the broker's queue holds a message.

What the service does to the outside world is recorded as a log of events:
frames written, acknowledgements and notices.

## Model

| member | source | states |
|---|---|---|
| Decimal.Pad | src/constants/checkMachineStatus.ts:27 | `pad(n, w)` is a digit string that reads back as `n`; it is `w` wide when `n` fits and never truncates |
| Decimal.ReadShow | src/constants/checkMachineStatus.ts:53-56 | reading back the decimal text `${n}` gives `n` |
| Decimal.LastTwoOfPad | src/constants/checkMachineStatus.ts:27 | `pad(n, 2).slice(-2)` is two digits whose value is `n mod 100` |
| Decimal.PadRead | src/constants/checkMachineStatus.ts:53-56 | a fixed-width digit field is the padding of its own value, so a field read back re-encodes to itself |
| PlcTypes.LookupKey | src/services/plc.ts:54-55 | `PlcCommand[key]` finds a member exactly when `key` is its name |
| PlcTypes.CommandOfCode | src/types/checkMachine.ts:17-31 | the member with a given mode token, and no other, is found from that token |
| PlcTypes.ModeValue | src/constants/checkMachineStatus.ts:38 | `parseInt(mode.slice(1))` is below 100 and the token is `M` followed by its two-digit padding |
| PlcTypes.CodesWellFormed | src/types/checkMachine.ts:17-31 | every mode token is `M` and two digits, and no two commands share a token |
| PlcTypes.ModeValues | src/types/checkMachine.ts:17-31 | table values, not a general property: the numeric modes read off the enum are 1 and 2 (dispense), 38/39/40 (checks), 34/35 (unlock) and 36/37 (lights off) |
| FrameCodec.CalculateChecksum | src/constants/checkMachineStatus.ts:7-28 | two digits whose value is the sum of the eight arguments mod 100 |
| FrameCodec.FrameEnds | src/constants/checkMachineStatus.ts:30-57 | a frame starts `B00R`, is at least 33 characters long, and ends with the two-digit sum of floor, position, quantity, colour, numeric mode, running number and 4500, mod 100 |
| FrameCodec.CreateSimpleCommand | src/constants/checkMachineStatus.ts:59-86 | `createSimpleCommand(mode, running, color)` equals `createPlcCommand(0, 0, 0, mode, running, color)` |
| FrameCodec.SimpleFrameText | src/constants/checkMachineStatus.ts:59-86 | encoding a frame with zero floor, position and quantity is `createSimpleCommand` |
| FrameCodec.TemplateFields | src/constants/checkMachineStatus.ts:53-56 | with the fixed widths, each field, literal and the checksum sits at its fixed offset in the frame |
| FrameCodec.DecodeEncode | src/constants/checkMachineStatus.ts:53-56 | every frame whose fields fit their widths decodes back to itself |
| FrameCodec.EncodeDecode | src/constants/checkMachineStatus.ts:53-56 | a text that decodes is exactly the encoding of the decoded frame |
| FrameCodec.InlineCheckFrame | src/utils/sendMachineQueue.ts:90-93 | the status-check frame built by hand is `createSimpleCommand(cmd, running)` |
| FrameCodec.InlineChecksum | src/utils/sendMachineQueue.ts:91-92 | the hand-written checksum `pad(m + running + 4500, 2).slice(-2)` is `calculateChecksum` of the simple frame |
| StatusCodes.StatusField | src/services/order.ts:547 | `split('T')[1]?.slice(0, 2)` is absent exactly when there is no `T`, and otherwise is at most two characters with no `T` |
| StatusCodes.StatusOf | src/constants/checkMachineStatus.ts:89 | the status is at most two characters with no `T`, and is `00` for a reply without a `T` |
| StatusCodes.StatusOfReply | src/constants/checkMachineStatus.ts:89 | a reply whose first `T` is followed by a status (two characters, or fewer ending at the end of the text or at another `T`) has that status as its field |
| StatusCodes.GarbledReplies | src/constants/checkMachineStatus.ts:89 | three worked examples, not a general property: `""` and `garbage` read as `00`, an unknown status, and `xT` yields the empty status |
| StatusCodes.Interpret | src/constants/checkMachineStatus.ts:90-119 | the reading reports its status, and is the unknown-status default exactly for statuses outside the thirteen known codes |
| StatusCodes.InterpretInjective | src/constants/checkMachineStatus.ts:90-119 | distinct statuses get distinct readings |
| StatusCodes.StatusLists | src/constants/checkMachineStatus.ts:3-5 | the two copies of each status list have the same members; success and fail share exactly `37`; the check commands are M38, M39 and M40 |
| StatusCodes.NamedStatuses | src/types/checkMachine.ts:33-40 | every named status except Error is on the success list, Error is on the fail list, and each is one of the known codes |
| CheckSequence.ClassifyTable | src/utils/sendMachineQueue.ts:30-46 | door and shelf pass exactly on 30, 34, 35, 36 and 20; the tray picks the left side on 35, the right on 34 or 36, and never just passes |
| CheckSequence.ClassifyErrors | src/utils/sendMachineQueue.ts:35-45 | a failing status raises "not ready" when it is on the fail list and "unknown status" otherwise; a tray status outside 34, 35 and 36 always aborts |
| CheckSequence.CheckFrame | src/utils/sendMachineQueue.ts:89-96 | the check frame is the codec's encoding of the check request, equals `createSimpleCommand`, and decodes back |
| CheckSequence.RunChecksOk | src/utils/sendMachineQueue.ts:16-54 | the check loop succeeds exactly when no check aborts |
| CheckSequence.RunChecksFrames | src/utils/sendMachineQueue.ts:16-27 | every frame the loop writes is the request of the check in that position, with that check's running number |
| CheckSequence.FirstAbortStops | src/utils/sendMachineQueue.ts:47-53 | the first aborting check's error is the verdict, and no later check is written |
| CheckSequence.CheckMachineStatusShared | src/utils/sendMachineQueue.ts:56-81 | at most four frames; success exactly when all four went out and the dispense reply came, returned unread with status 100; no reply is the 5 s timeout error |
| CheckSequence.SharedDispenses | src/utils/sendMachineQueue.ts:14-58 | the dispense frame goes out exactly when the door and shelf pass and the tray picks a side; it carries the item, colour 1, the tray's side and the request's running number |
| CheckSequence.SharedCheckFrames | src/utils/sendMachineQueue.ts:16-27 | the first three frames are the door, tray and shelf checks with their own running numbers |
| CheckSequence.DoorNotReady | src/utils/sendMachineQueue.ts:40-42 | a door on the fail list ends everything after the door check's frame, with "not ready" |
| CheckSequence.TrayRejectsDoorStatuses | src/utils/sendMachineQueue.ts:30-39 | a tray reporting 30 or 20 (accepted from the door) aborts as an unknown status after two frames |
| PlcService.FindSocket | src/services/plc.ts:26-28 | the first socket at the machine's IP, absent exactly when none is connected there |
| PlcService.Admit | src/services/plc.ts:19-29 | 400 exactly on a falsy floor, quantity, position or id; 404 for an unknown machine; 500 without a socket; otherwise the machine's socket |
| PlcService.SendCommand | src/services/plc.ts:16-49 | succeeds exactly when the payload is complete, the machine is known and connected and the status check succeeded, returning the floor, position and check result; a falsy field is exactly the 400, and every other error is a 404 or a 500 |
| PlcService.SendCommandFromQueue | src/services/plc.ts:103-150 | the admission errors come before any frame; success exactly when admitted, all checks pass and the dispense reply came; the fourth frame is the dispense frame |
| PlcService.Dispatch | src/services/plc.ts:61-100 | ShowModules needs floor, position and quantity and goes out at colour 0, other commands as simple frames; only the first socket is used; no reply is a 504 |
| PlcService.SendCommandM | src/services/plc.ts:51-59 | as written, every request is rejected with 400 "Invalid command", whatever its command, before the running-number lookup, any socket access or any frame |
| PlcService.ToUpper | src/services/plc.ts:54 | the upper-cased text has the same length, keeps capitals and holds no lower-case letter |
| PlcService.LookupByName | src/services/plc.ts:54-55 | each command is found by its own name and never by its upper-cased name |
| PlcService.UpperKeyMisses | src/services/plc.ts:54-55 | no upper-cased text is the name of any command |
| PlcService.SendCommandMByCode | src/services/plc.ts:51-59 | the token lookup rejects with 400 exactly when the upper-cased command is no mode token (or is missing); a request naming a command's token is dispatched as that command |
| PlcService.ByCodeReachesEvery | src/services/plc.ts:51-63 | with the token lookup, `M32` or `m32` reaches ShowModules, and likewise for every command |
| OrderLifecycle.RequiredCurrent | src/services/order.ts:357-363 | a required current status exists exactly for the five statuses, and differs from the target |
| OrderLifecycle.CheckTransition | src/services/order.ts:365-377 | allowed exactly when the order holds the required status; the generic rejection names both statuses |
| OrderLifecycle.LegalTransitions | src/services/order.ts:357-377 | exactly five transitions are allowed: ready→pending, pending→receive, receive→complete, pending→error, pending→ready |
| OrderLifecycle.NotYetReceivedUnreachable | src/services/order.ts:365-371 | the special "not yet in receive" rejection can never be raised |
| OrderLifecycle.UnknownTargetRejected | src/services/order.ts:357-377 | a target outside the five statuses is refused whatever the order holds |
| OrderLifecycle.SetStatus | src/services/order.ts:379-382 | only the addressed order's status changes |
| OrderLifecycle.SettlingLastOrder | src/services/order.ts:386-395 | ending an order ends its prescription exactly when every other order of it had ended |
| OrderLifecycle.OnlyCompleteSettles | src/services/order.ts:384-395 | past the `error` return, only a transition to `complete` can settle a prescription |
| OrderLifecycle.TakeStock | src/services/order.ts:472-498 | succeeds exactly when the drug's record covers the quantity, then takes exactly that much off that record only; otherwise the missing-record or short-stock error |
| OrderLifecycle.TakeStockTwice | src/services/order.ts:490-498 | taking `a` then `b` succeeds and ends as taking `a + b` at once |
| OrderLifecycle.SlotCommands | src/services/order.ts:508-528 | the unlock mode is 34 for slot `M01` and 35 for any other slot, and the lights-off mode is the same side's, two above |
| OrderLifecycle.SlotTexts | src/services/order.ts:504-528 | the hand-built unlock and lights-off frames are `createSimpleCommand` of M34/M36 for slot M01 and M35/M37 otherwise |
| OrderLifecycle.SlotFramesText | src/services/order.ts:504-528 | the slot's frame records encode to exactly those texts |
| OrderLifecycle.SlotSidesDiffer | src/services/order.ts:508-528 | the right slot's frames differ from any other slot's |
| Confirmation.CompleteStopTable | src/services/order.ts:556-598 | the loop stops on the left exactly for door 30/31 with tray 35, and on the right for door 30/32 with tray 36; a door of 34 never stops it |
| Confirmation.CompletePoll | src/services/order.ts:551-609 | the loop runs at most one round past the budget; a timeout uses exactly all of them |
| Confirmation.CompleteConfirmedIff | src/services/order.ts:551-609 | confirms exactly when some round within the budget stops after rounds that were answered and went on |
| Confirmation.CompleteReachesStop | src/services/order.ts:551-598 | when round `k` within the budget stops after rounds that went on, the loop confirms after exactly `k + 1` rounds |
| Confirmation.CompleteEffects | src/services/order.ts:562-605 | lights-off written once on confirmation and never otherwise; acknowledged only on confirmation with a queued message; one notice then or on timeout |
| Confirmation.ReceiveSide | src/services/order.ts:629-632 | tray 35 or 34 watches the left door, 36 the right, anything else neither |
| Confirmation.ReceiveFlow | src/services/order.ts:618-677 | a door loop runs exactly when the tray check was answered with a side; without one nothing is acknowledged or notified |
| Confirmation.ReceiveDoorPoll | src/services/order.ts:637-669 | the door loop runs at most one round past the budget, and a timeout uses all of them |
| Confirmation.ReceiveConfirmedIff | src/services/order.ts:637-669 | confirms exactly when some round within the budget finds the watched door locked after rounds that found it open |
| Confirmation.ReceiveEffects | src/services/order.ts:644-665 | acknowledges once exactly on confirmation, never on timeout; one notice on either |
| Confirmation.ReceivedPoll | src/services/order.ts:258-324 | the `received` loop runs at most one round past the budget, and a timeout uses all of them |
| Confirmation.ReceivedEffects | src/services/order.ts:288-324 | `received` acknowledges and notifies once whenever its loop finishes, on the lock or on the timeout |
| Confirmation.ReceivedWritesDoorChecks | src/services/order.ts:258-294 | every frame the `received` loop writes is a door check |
| OrderService.UpdateStatusOrderServicePending | src/services/order.ts:335-683 | no order or prescription is created or deleted by a status update |
| OrderService.CompleteFlow | src/services/order.ts:453-616 | the complete flow changes neither orders nor prescriptions, and a stock error ends it with nothing written |
| OrderService.UnlockFlow | src/services/order.ts:504-609 | the cabinet part of the complete flow changes no table, sends nothing for an order without a slot, and fails only with the unlock timeout or a thrown lookup, never with an HTTP error |
| OrderService.Lookup | src/services/order.ts:402-408 | the prescription is returned exactly when it exists and every one of its orders has a status containing `complete`, and then it is the requested one |
| OrderService.LookupAfterSettle | src/services/order.ts:386-408 | when every order holds one of the five statuses, the lookup after the completion step finds the prescription exactly when all of its orders are `complete`, and then the prescription has been marked `complete` |
| OrderService.GuardsChangeNothing | src/services/order.ts:342-377 | unknown machine or order: 404; refused transition: 400 with the table's rejection; none of these writes or sends anything |
| OrderService.ErrorTransitionOnlyWritesStatus | src/services/order.ts:379-384 | an accepted `error` writes the status and returns with no prescription, stock or cabinet effect |
| OrderService.PrescriptionCompletion | src/services/order.ts:386-400 | the prescription becomes `complete` exactly when all its orders have ended, only on a `complete` transition; otherwise no prescription changes |
| OrderService.CompleteReduces | src/services/order.ts:453-467 | on a connected cabinet an accepted `complete` runs the complete flow on the written tables |
| OrderService.CompleteTakesStock | src/services/order.ts:469-498 | when the running-number lookup throws, the call fails with the status written and no stock taken or frame sent; otherwise the guarded order takes exactly its quantity from its drug's stock, never below zero; a missing record is a 404 and short stock a 400 that leave stock alone; no guard, no change |
| OrderService.CompleteFlowStock | src/services/order.ts:469-501 | a thrown running-number lookup ends the complete flow with nothing written or sent; then the stock step, whose errors end it with no cabinet traffic |
| OrderService.NoSocketNoStock | src/services/order.ts:453 | without a connected cabinet `complete` takes no stock and sends nothing |
| OrderService.CompleteFlowFrames | src/services/order.ts:469-609 | nothing is sent when the running-number lookup throws; otherwise the unlock frame goes first, lights-off at most once, and at most one acknowledgement, none without a queued message |
| OrderService.ReceiveTransition | src/services/order.ts:618-677 | an accepted `receive` leaves the stock alone, never fails because of the cabinet, and acknowledges at most once |
| OrderService.ReceivedAsWritten | src/services/order.ts:230-333 | `received` as written never touches the stock |
| OrderService.ReceivedWrongKey | src/services/order.ts:242-253 | an order `ORD-1` stored for item `D1` cannot be received: the write throws and the order stays in `receive` |
| OrderService.ReceivedWritesOtherOrder | src/services/order.ts:698-711 | `received` as written throws unless some order's item id equals the found order's id, and then completes that order |
| OrderService.ReceivedNeverCompletesPrescription | src/services/order.ts:254-256 | `received` as written never changes a prescription |
| OrderService.Received | src/services/order.ts:230-333 | the corrected `received` never touches the stock |
| OrderService.ReceivedCompletes | src/services/order.ts:230-333 | the corrected `received` completes the order it found, and its prescription exactly when every other order of it had ended |
| OrderService.ReceivedAcksOnce | src/services/order.ts:288-324 | both versions of `received` acknowledge at most once |
| PresOrders.ParseInt | src/services/order.ts:113-114 | `parseInt` gives `NaN` exactly on text that neither starts with a decimal digit nor is `0x`/`0X` followed by a hexadecimal digit |
| PresOrders.ParseShow | src/services/order.ts:113-114 | `parseInt` reads back the digits of a number followed by a non-digit, except 0 followed by `x` or `X`, which is a hexadecimal prefix |
| PresOrders.ParseDigits | src/services/order.ts:113-114 | `parseInt` reads a run of decimal digits, leading zeros allowed, up to the first non-digit, except `0` followed by `x` or `X` |
| PresOrders.DigitPosition | src/services/order.ts:113-114 | a bin location of a floor digit followed by decimal digits (leading zeros allowed) and any text not continuing them yields that floor and the digits' value as position |
| PresOrders.PaddedExample | src/services/order.ts:113-114 | worked example: bin location `105` is floor 1, position 5 |
| PresOrders.TrailingExample | src/services/order.ts:113-114 | worked example: bin location `12A` is floor 1, position 2 |
| PresOrders.ParseHex | src/services/order.ts:113-114 | after a `0x`/`0X` prefix, `parseInt` reads the hexadecimal digits that follow, up to the first character that is not one |
| PresOrders.HexPosition | src/services/order.ts:113-114 | a bin location of a floor digit followed by `0x`/`0X` and hexadecimal digits yields that floor and the hexadecimal value as position |
| PresOrders.HexExamples | src/services/order.ts:113-114 | worked examples: `parseInt("0x")` is `NaN`, `parseInt("0x5")` is 5, and bin location `10x5` is floor 1, position 5 |
| PresOrders.ToOrder | src/services/order.ts:102-119 | each line becomes order `ORD-<row id>` of its prescription, item and quantity, status `ready`, no slot; a bin location of a floor digit and a position number yields that floor and position, and one not starting with a digit yields no floor |
| PresOrders.OnAdd | src/services/order.ts:88-90 | the kept lines are exactly the lines for the `ADD` cabinet |
| PresOrders.SortByFloor | src/services/order.ts:120 | the sort rearranges the orders without adding or losing any |
| PresOrders.SortSorted | src/services/order.ts:120 | when every floor parses, the orders come out in non-decreasing floor order |
| PresOrders.PlanOrdersBuilds | src/services/order.ts:88-120 | orders are built exactly when there is an `ADD` line and the first one's prescription is not on file; they are a rearrangement of the built lines, all `ready` without slot, sorted when every floor parses |
| PresOrders.EmptyListBeingDispensed | src/services/order.ts:92-98 | with no `ADD` line and any prescription on file, the answer is the 500 "being dispensed" |
| PresOrders.CorrectedRefusals | src/services/order.ts:88-178 | the corrected step answers 404 exactly without `ADD` lines and 500 exactly for a prescription on file, and otherwise agrees with the original |

## Left out

- Sockets, timers, Prisma, RabbitMQ, socket.io and logging are not modelled as code. A written frame, an acknowledgement and a notice are events. A reply or its absence is an input. The wall-clock deadline is a round budget.
- The running-number services (`getRunning`, `getMachineRunningCheck`) and `checkMachineStatus` in `src/utils/checkMachineStatus` are not part of this model. Their results, including a thrown lookup, are inputs.
- The `pad` helper in `src/utils/padStart` is not part of this model. It is taken to pad with leading zeros and never truncate, as its uses at src/constants/checkMachineStatus.ts:27 and :53-56 require.
- PlcService.SendCommandFromQueue: takes the running number as an input. The call at src/services/plc.ts:131-134 passes no running number to the three-parameter `checkMachineStatusShared`. The frame would then carry `undefined` and a `NaN` checksum, and this JavaScript behaviour is not modelled.
- Confirmation.CompletePoll: each probe carries the status the check's reply yields, not the reply text. The text-to-status step is `StatusCodes.StatusOf`, proved on its own.
- Confirmation.CompletePoll: a status check whose reply never comes is not recorded as a frame. The loop simply ends `Stalled`.
- OrderService.UpdateStatusOrderServicePending: the `findOrder` lookup at src/services/order.ts:460-467 always finds the order just written, so its 404 is not modelled.
- OrderService.UpdateStatusOrderServicePending: a failed stock update or status write inside Prisma (other than a missing record) is not modelled.
- OrderService.UpdateStatusOrderServicePending: each drug has at most one stock record. `inventory.findFirst` is then a map lookup.
- OrderService.Received: each item id has at most one order, so `findFirst` on the item id is a map lookup.
- PresOrders.SortByFloor: the position of orders whose floor does not parse (`NaN`) is one particular choice. Their order under JavaScript's sort with an inconsistent comparator is implementation-defined.
- PresOrders.SortByFloor: stability among orders of equal floor is not proved.
- PresOrders.ParseInt: models `parseInt` without a radix on text without leading white space or a sign, including the `0x`/`0X` hexadecimal prefix. Values beyond the exact range of a JavaScript number are not rounded.
- PresOrders.PlanOrders: does not model the creation transaction at src/services/order.ts:145-166. The P2002 duplicate error at :180-186 can only arise when two requests race.
- PresOrders.PlanOrders: leaves out the per-order stock warnings and their index alignment (src/services/order.ts:122-143, 168-172), as well as dates and names.
- PlcService.ToUpper: upper-cases ASCII letters only. The command texts are ASCII.
- Message texts (mostly Thai) are replaced by named reasons, and `interpretPlcResponse`'s texts by named readings.
- Negative numbers in request payloads are not modelled: floors, positions, quantities and running numbers are naturals.
- The routes (src/routes) and the broker message shape (src/types/rabbit.ts) carry no behaviour to model.
- Concurrent requests on one socket are not modelled: calls are taken to run one at a time.

## Findings

| source | as written | input that shows it | evidently intended | confidence | as-written member | corrected member |
|---|---|---|---|---|---|---|
| src/services/order.ts:253 | `received` finds the order by item id, then writes its status with `updateOrder(result.id, ...)`, which matches `OrderItemId` against the order's own id | order `ORD-1` for item `D1` in status `receive`: `received("D1")` throws because no record matches, and the order stays in `receive` | write the status of the order found, keyed by the item id it was found by | medium; not executed | OrderService.ReceivedWrongKey | OrderService.ReceivedCompletes |
| src/services/order.ts:254-256 | after the write, the prescription is completed only if no order anywhere is `complete` or `error` | any call that gets past the write: the order just written is `complete`, so the list is never empty | complete the prescription once all of its own orders have ended, as the status update does at :386-400 | medium; not executed | OrderService.ReceivedNeverCompletesPrescription | OrderService.ReceivedCompletes |
| src/services/plc.ts:54-59 | `sendCommandM` looks up `command.toUpperCase()` among the enum's member names, which all contain lower-case letters | `command: "m32"` (or `"ShowModules"`): the key `M32` (or `SHOWMODULES`) names no member, so the answer is 400 "Invalid command" | look the upper-cased command up as a mode token, as the "(m32)" in the ShowModules message suggests | medium; not executed | PlcService.SendCommandM | PlcService.SendCommandMByCode |
| src/services/order.ts:92-98 | the prescription-on-file check runs before the emptiness check, on `presList[0]?.f_prescriptionno`, which is `undefined` for an empty list, and a filter on `undefined` matches any prescription | a list with no `ADD` line while prescription `P1` is on file: the answer is 500 "being dispensed" | 404 "Order not found on ADD" whenever no line is for `ADD` | medium; not executed | PresOrders.EmptyListBeingDispensed | PresOrders.CorrectedRefusals |

=== FILE: check_sequence.dfy ===
/**
 * `checkMachineStatusShared`: before a dispense, the cabinet is asked in turn
 * for its door, tray and shelf state; each reply is classified against the
 * success and fail lists, the tray reply picks the dispense side, and only if
 * every check passes is the dispense frame written.
 *
 * Each check round trip is given as an `Exchange`: the running-number lookup
 * may fail, the cabinet may stay silent past the 5 s timeout, or it replies.
 */
module CheckSequence {
  import opened Wrappers
  import opened PlcTypes
  import opened FrameCodec
  import opened StatusCodes

  /** What one check produced. */
  datatype Exchange =
    | LookupFailed                        // the running-number lookup threw before anything was written
    | NoReply(running: nat)               // the frame went out, no reply came within 5 s
    | Replied(running: nat, raw: string)  // the frame went out and `raw` came back

  /** The dispense item: the fields of the request the final frame uses. */
  datatype Item = Item(floor: nat, position: nat, qty: nat)

  /** The resolved `{ status: 100, data }` of the dispense reply. */
  datatype CommandResult = CommandResult(status: nat, data: string)

  /** The three checks, in the order they are issued. */
  const Checks: seq<PlcCommand> := [CheckDoor, CheckTray, CheckShelf]

  /** The statuses that let CheckDoor and CheckShelf pass, and those that let CheckTray pick a side. */
  const PassStatuses: set<string> := {"30", "34", "35", "36", "20"}
  const SideStatuses: set<string> := {"34", "35", "36"}

  /** How one classified check ends: it passes, it picks the dispense side, or it aborts the sequence. */
  datatype Step = Pass | ChooseSide(side: PlcCommand) | Abort(err: StatusError)

  /** The classification of a check's status: the tray branch, then the fail-before-success test. */
  function Classify(cmd: PlcCommand, status: string): Step {
    if cmd == CheckTray then
      if status == "35" then ChooseSide(DispenseLeft)
      else if status == "34" || status == "36" then ChooseSide(DispenseRight)
      else if status in QueueFailStatuses then Abort(NotReady(cmd, status))
      else Abort(UnknownStatus(cmd, status))
    else if status in QueueFailStatuses then Abort(NotReady(cmd, status))
    else if status !in QueueSuccessStatuses then Abort(UnknownStatus(cmd, status))
    else Pass
  }

  /**
   * What the classification decides: the door and shelf checks pass on
   * exactly the pass statuses and never pick a side; the tray check never
   * simply passes, picks the left side on 35 and the right side on 34 or 36.
   */
  lemma ClassifyTable(cmd: PlcCommand, status: string)
    ensures var r := Classify(cmd, status);
      && (cmd != CheckTray ==> (r == Pass <==> status in PassStatuses) && !r.ChooseSide?)
      && (cmd == CheckTray ==> (r == ChooseSide(DispenseLeft) <==> status == "35"))
      && (cmd == CheckTray ==> (r == ChooseSide(DispenseRight) <==> status == "34" || status == "36"))
      && (cmd == CheckTray ==> r != Pass)
  {
  }

  /**
   * The errors a classification raises: not ready for a status on the fail
   * list, unknown status for any other status that does not pass; both name
   * the command and the status.
   */
  lemma ClassifyErrors(cmd: PlcCommand, status: string)
    ensures Classify(cmd, status).Abort? ==>
              Classify(cmd, status).err == (if status in QueueFailStatuses then NotReady(cmd, status) else UnknownStatus(cmd, status))
    ensures cmd == CheckTray && status !in SideStatuses ==> Classify(cmd, status).Abort?
  {
  }

  /**
   * One check end to end: a failed lookup is rewrapped as a check failure naming
   * the command; the timeout and the classification errors, already status
   * errors, propagate as they are.
   */
  function Attempt(cmd: PlcCommand, e: Exchange): Step {
    match e
    case LookupFailed => Abort(CheckFailed(cmd))
    case NoReply(_) => Abort(CheckNoReply)
    case Replied(_, raw) => Classify(cmd, StatusOf(raw))
  }

  /**
   * The status-check frame as the sequencer writes it, built by hand as
   * `B00R00C00Q0000L00${cmd}T00N${running}D4500S${sum}`: the codec's encoding
   * of the check request, which is `createSimpleCommand(cmd, running)`.
   */
  function CheckFrame(cmd: PlcCommand, running: nat): (text: string)
    ensures text == Encode(SimpleFrame(cmd, running))
    ensures text == CreateSimpleCommand(cmd, running)
    ensures Decode(text) == Some(SimpleFrame(cmd, running))
  {
    InlineCheckFrame(cmd, running);
    SimpleFrameText(cmd, running, 0);
    DecodeEncode(SimpleFrame(cmd, running));
    InlineFrame(Code(cmd), ModeValue(cmd), running)
  }

  /** The frames a check writes: none when the lookup failed, its request otherwise. */
  function Written(cmd: PlcCommand, e: Exchange): seq<Frame> {
    if e.LookupFailed? then [] else [SimpleFrame(cmd, e.running)]
  }

  /** The frames written by a run of checks and its verdict: the dispense mode, or the first error. */
  datatype CheckRun = CheckRun(sent: seq<Frame>, verdict: Result<PlcCommand, StatusError>)

  /** The loop over the checks, carrying the mode chosen so far. */
  function RunChecks(cmds: seq<PlcCommand>, ex: seq<Exchange>, mode: PlcCommand): (r: CheckRun)
    requires |ex| == |cmds|
    ensures |r.sent| <= |cmds|
    ensures r.verdict.Ok? ==> |r.sent| == |cmds|
    decreases |cmds|
  {
    if |cmds| == 0 then
      CheckRun([], Ok(mode))
    else
      var w := Written(cmds[0], ex[0]);
      match Attempt(cmds[0], ex[0])
      case Abort(err) => CheckRun(w, Err(err))
      case Pass =>
        var rest := RunChecks(cmds[1..], ex[1..], mode);
        CheckRun(w + rest.sent, rest.verdict)
      case ChooseSide(side) =>
        var rest := RunChecks(cmds[1..], ex[1..], side);
        CheckRun(w + rest.sent, rest.verdict)
  }

  /** Every frame the loop writes is the request of the check in that position, with that check's running number. */
  lemma {:induction false} RunChecksFrames(cmds: seq<PlcCommand>, ex: seq<Exchange>, mode: PlcCommand)
    requires |ex| == |cmds|
    ensures var r := RunChecks(cmds, ex, mode);
            forall i :: 0 <= i < |r.sent| ==> !ex[i].LookupFailed? && r.sent[i] == SimpleFrame(cmds[i], ex[i].running)
    decreases |cmds|
  {
    if |cmds| > 0 {
      var first := Attempt(cmds[0], ex[0]);
      if !first.Abort? {
        var next := if first.ChooseSide? then first.side else mode;
        var cs, es := cmds[1..], ex[1..];
        RunChecksFrames(cs, es, next);
        var rest := RunChecks(cs, es, next);
        var sent := RunChecks(cmds, ex, mode).sent;
        assert sent == [SimpleFrame(cmds[0], ex[0].running)] + rest.sent;
        forall i | 1 <= i < |sent| ensures !ex[i].LookupFailed? && sent[i] == SimpleFrame(cmds[i], ex[i].running) {
          assert sent[i] == rest.sent[i - 1] && cs[i - 1] == cmds[i] && es[i - 1] == ex[i];
        }
      }
    }
  }

  /** The loop succeeds exactly when no check aborts. */
  lemma {:induction false} RunChecksOk(cmds: seq<PlcCommand>, ex: seq<Exchange>, mode: PlcCommand)
    requires |ex| == |cmds|
    ensures RunChecks(cmds, ex, mode).verdict.Ok? <==> forall i :: 0 <= i < |cmds| ==> !Attempt(cmds[i], ex[i]).Abort?
    decreases |cmds|
  {
    if |cmds| > 0 {
      var first := Attempt(cmds[0], ex[0]);
      if !first.Abort? {
        var next := if first.ChooseSide? then first.side else mode;
        var cs, es := cmds[1..], ex[1..];
        RunChecksOk(cs, es, next);
        assert RunChecks(cmds, ex, mode).verdict == RunChecks(cs, es, next).verdict;
        if forall i :: 0 <= i < |cs| ==> !Attempt(cs[i], es[i]).Abort? {
          forall i | 0 <= i < |cmds| ensures !Attempt(cmds[i], ex[i]).Abort? {
            if i > 0 {
              assert cs[i - 1] == cmds[i] && es[i - 1] == ex[i];
            }
          }
        } else {
          var j :| 0 <= j < |cs| && Attempt(cs[j], es[j]).Abort?;
          assert cs[j] == cmds[j + 1] && es[j] == ex[j + 1];
        }
      }
    }
  }

  /** A check passes: it got a reply whose status is in `allowed`. */
  predicate Passed(e: Exchange, allowed: set<string>) {
    e.Replied? && StatusOf(e.raw) in allowed
  }

  /** The dispense side a passing tray status selects. */
  function SideFor(status: string): PlcCommand {
    if status == "35" then DispenseLeft else DispenseRight
  }

  /** The frames written, in order, and the outcome of `checkMachineStatusShared`. */
  datatype Shared = Shared(sent: seq<Frame>, result: Result<CommandResult, StatusError>)

  /**
   * `checkMachineStatusShared`: the three checks, then the dispense frame
   * `createPlcCommand(floor, position, qty, mode, running)` at the default
   * colour 1, whose reply is returned unread with status 100.
   */
  function CheckMachineStatusShared(
    item: Item, running: nat, door: Exchange, tray: Exchange, shelf: Exchange, reply: Option<string>
  ): (r: Shared)
    ensures |r.sent| <= 4
    ensures r.result.Ok? <==> |r.sent| == 4 && reply.Some?
    ensures r.result.Ok? ==> r.result.value == CommandResult(100, reply.value)
    ensures |r.sent| == 4 && reply.None? ==> r.result == Err(DispenseNoReply)
  {
    var run := RunChecks(Checks, [door, tray, shelf], DispenseRight);
    match run.verdict
    case Err(e) => Shared(run.sent, Err(e))
    case Ok(mode) =>
      var frame := Frame(item.floor, item.position, item.qty, 1, mode, running);
      var result := match reply
        case Some(raw) => Ok(CommandResult(100, raw))
        case None => Err(DispenseNoReply);
      Shared(run.sent + [frame], result)
  }

  /**
   * The dispense frame goes out exactly when all three checks pass, and it
   * carries the item's fields, colour 1, the side the tray picked and the
   * request's running number.
   */
  lemma SharedDispenses(item: Item, running: nat, door: Exchange, tray: Exchange, shelf: Exchange, reply: Option<string>)
    ensures var r := CheckMachineStatusShared(item, running, door, tray, shelf, reply);
      && (|r.sent| == 4 <==> Passed(door, PassStatuses) && Passed(tray, SideStatuses) && Passed(shelf, PassStatuses))
      && (|r.sent| == 4 ==> r.sent[3] == Frame(item.floor, item.position, item.qty, 1, SideFor(StatusOf(tray.raw)), running))
  {
    RunChecksModes(door, tray, shelf);
  }

  /** The frames before the dispense frame are the check requests, in order, each with its own running number. */
  lemma SharedCheckFrames(item: Item, running: nat, door: Exchange, tray: Exchange, shelf: Exchange, reply: Option<string>)
    ensures var r := CheckMachineStatusShared(item, running, door, tray, shelf, reply);
            forall i :: 0 <= i < |r.sent| && i < 3 ==>
              !([door, tray, shelf][i]).LookupFailed? &&
              r.sent[i] == SimpleFrame(Checks[i], ([door, tray, shelf][i]).running)
  {
    RunChecksFrames(Checks, [door, tray, shelf], DispenseRight);
  }

  /** The three checks pass exactly on passing replies, and then pick the tray's side. */
  lemma RunChecksModes(door: Exchange, tray: Exchange, shelf: Exchange)
    ensures var run := RunChecks(Checks, [door, tray, shelf], DispenseRight);
            (run.verdict.Ok? <==> Passed(door, PassStatuses) && Passed(tray, SideStatuses) && Passed(shelf, PassStatuses))
            && (run.verdict.Ok? ==> run.verdict.value == SideFor(StatusOf(tray.raw)))
  {
    var ex := [door, tray, shelf];
    assert Checks[1..] == [CheckTray, CheckShelf] && ex[1..] == [tray, shelf];
    if door.Replied? {
      ClassifyTable(CheckDoor, StatusOf(door.raw));
    }
    TrayThenShelf(tray, shelf, DispenseRight);
  }

  lemma TrayThenShelf(tray: Exchange, shelf: Exchange, mode: PlcCommand)
    ensures var run := RunChecks([CheckTray, CheckShelf], [tray, shelf], mode);
            (run.verdict.Ok? <==> Passed(tray, SideStatuses) && Passed(shelf, PassStatuses))
            && (run.verdict.Ok? ==> run.verdict.value == SideFor(StatusOf(tray.raw)))
  {
    var cmds, ex := [CheckTray, CheckShelf], [tray, shelf];
    assert cmds[1..] == [CheckShelf] && ex[1..] == [shelf];
    var step := Attempt(CheckTray, tray);
    if tray.Replied? {
      ClassifyTable(CheckTray, StatusOf(tray.raw));
    }
    if step.ChooseSide? {
      assert tray.Replied? && step.side == SideFor(StatusOf(tray.raw));
      ShelfLast(shelf, step.side);
    }
  }

  lemma ShelfLast(shelf: Exchange, mode: PlcCommand)
    ensures var run := RunChecks([CheckShelf], [shelf], mode);
            (run.verdict.Ok? <==> Passed(shelf, PassStatuses)) && (run.verdict.Ok? ==> run.verdict.value == mode)
  {
    var cmds, ex := [CheckShelf], [shelf];
    assert cmds[1..] == [] && ex[1..] == [];
    if shelf.Replied? {
      ClassifyTable(CheckShelf, StatusOf(shelf.raw));
    }
  }

  /**
   * The first check to abort ends the sequence: its error is the verdict, and
   * no later check is written (its own frame is, unless its lookup failed).
   */
  lemma {:induction false} FirstAbortStops(cmds: seq<PlcCommand>, ex: seq<Exchange>, mode: PlcCommand, k: nat)
    requires |ex| == |cmds| && k < |cmds|
    requires Attempt(cmds[k], ex[k]).Abort?
    requires forall i :: 0 <= i < k ==> !Attempt(cmds[i], ex[i]).Abort?
    ensures RunChecks(cmds, ex, mode).verdict == Err(Attempt(cmds[k], ex[k]).err)
    ensures |RunChecks(cmds, ex, mode).sent| == if ex[k].LookupFailed? then k else k + 1
  {
    var first := Attempt(cmds[0], ex[0]);
    if k > 0 {
      assert !first.Abort? && !ex[0].LookupFailed?;
      var next := if first.ChooseSide? then first.side else mode;
      var cs, es := cmds[1..], ex[1..];
      assert cs[k - 1] == cmds[k] && es[k - 1] == ex[k];
      forall i | 0 <= i < k - 1 ensures !Attempt(cs[i], es[i]).Abort? {
        assert cs[i] == cmds[i + 1] && es[i] == ex[i + 1];
      }
      FirstAbortStops(cs, es, next, k - 1);
      var rest := RunChecks(cs, es, next);
      assert RunChecks(cmds, ex, mode) == CheckRun([SimpleFrame(cmds[0], ex[0].running)] + rest.sent, rest.verdict);
    } else {
      assert RunChecks(cmds, ex, mode) == CheckRun(Written(cmds[0], ex[0]), Err(first.err));
    }
  }

  /** A door that is not ready stops everything: no tray or shelf check, no dispense frame. */
  lemma DoorNotReady(item: Item, running: nat, door: Exchange, tray: Exchange, shelf: Exchange, reply: Option<string>)
    requires door.Replied? && StatusOf(door.raw) in QueueFailStatuses
    ensures var r := CheckMachineStatusShared(item, running, door, tray, shelf, reply);
            r.result == Err(NotReady(CheckDoor, StatusOf(door.raw)))
            && r.sent == [SimpleFrame(CheckDoor, door.running)]
  {
    FirstAbortStops(Checks, [door, tray, shelf], DispenseRight, 0);
    AbortedShared(item, running, door, tray, shelf, reply);
  }

  /** When a check aborts, the sequencer reports that error and writes only the checks' frames. */
  lemma AbortedShared(item: Item, running: nat, door: Exchange, tray: Exchange, shelf: Exchange, reply: Option<string>)
    requires RunChecks(Checks, [door, tray, shelf], DispenseRight).verdict.Err?
    ensures var run := RunChecks(Checks, [door, tray, shelf], DispenseRight);
            CheckMachineStatusShared(item, running, door, tray, shelf, reply) == Shared(run.sent, Err(run.verdict.error))
  {
  }

  /** A tray reporting 30 or 20, which the door and shelf checks accept, aborts as an unknown status. */
  lemma TrayRejectsDoorStatuses(item: Item, running: nat, door: Exchange, tray: Exchange, shelf: Exchange, reply: Option<string>)
    requires Passed(door, PassStatuses)
    requires tray.Replied? && (StatusOf(tray.raw) == "30" || StatusOf(tray.raw) == "20")
    ensures var r := CheckMachineStatusShared(item, running, door, tray, shelf, reply);
            r.result == Err(UnknownStatus(CheckTray, StatusOf(tray.raw))) && |r.sent| == 2
  {
    TrayAborts(door, tray, shelf, StatusOf(tray.raw));
    AbortedShared(item, running, door, tray, shelf, reply);
  }

  /** The check loop of the lemma above: the door passes, the tray aborts, two frames are written. */
  lemma TrayAborts(door: Exchange, tray: Exchange, shelf: Exchange, status: string)
    requires Passed(door, PassStatuses)
    requires tray.Replied? && StatusOf(tray.raw) == status && (status == "30" || status == "20")
    ensures var run := RunChecks(Checks, [door, tray, shelf], DispenseRight);
            run.verdict == Err(UnknownStatus(CheckTray, status)) && |run.sent| == 2
  {
    var ex := [door, tray, shelf];
    TrayUnknown(status);
    ClassifyTable(CheckDoor, StatusOf(door.raw));
    assert Attempt(Checks[0], ex[0]) == Pass;
    assert Attempt(Checks[1], ex[1]) == Abort(UnknownStatus(CheckTray, status));
    FirstAbortStops(Checks, ex, DispenseRight, 1);
  }

  lemma TrayUnknown(status: string)
    requires status == "30" || status == "20"
    ensures Classify(CheckTray, status) == Abort(UnknownStatus(CheckTray, status))
  {
    if status == "30" {
      assert Classify(CheckTray, "30") == Abort(UnknownStatus(CheckTray, "30"));
    } else {
      assert Classify(CheckTray, "20") == Abort(UnknownStatus(CheckTray, "20"));
    }
  }
}

=== FILE: confirmation.dfy ===
/**
 * The confirmation loops that follow an order's status change: after the
 * complete flow unlocks a slot, after the receive flow finds an empty tray,
 * and in `received`. Each loop asks the cabinet for its door (and tray)
 * status once per round until a stop condition holds or the deadline passes.
 *
 * The replies are given as a finite sequence of probes, one per status check
 * in the order the checks are issued. The wall-clock deadline is a round
 * budget: after round `k` (counted from 0) the deadline has passed exactly
 * when `k` is at least the budget. The checks of these loops have no reply
 * timeout, so a loop whose probes run out waits forever (`Stalled`).
 * Acknowledging the queue message and the socket.io notice are recorded as
 * events, next to the frames written.
 */
module Confirmation {
  import opened Wrappers
  import opened PlcTypes
  import opened FrameCodec
  import opened StatusCodes

  /**
   * One status check: the running-number lookup threw, or the check was
   * written with a running number and answered; `status` is the reply's
   * status field, `split('T')[1]?.substring(0, 2) ?? '00'`.
   */
  datatype Probe = LookupError | Answer(running: nat, status: string)

  /** The probe for a check written with `running` and answered with the text `raw`. */
  function Answered(running: nat, raw: string): Probe {
    Answer(running, StatusOf(raw))
  }

  /** The notices sent to the front end; `subject` is the id the text names (`undefined` when absent). */
  datatype Notice = ReceiveNotice(subject: Option<string>) | TimeoutNotice(subject: Option<string>)

  /** What a loop does to the outside world. */
  datatype Event = Wrote(frame: Frame) | Acked | Notified(notice: Notice)

  /** How a loop ends. */
  datatype End =
    | Confirmed   // the stop condition held
    | TimedOut    // the deadline passed first
    | Stalled     // a check is still waiting for its reply
    | Failed      // a running-number lookup threw

  datatype Poll = Poll(events: seq<Event>, end: End, rounds: nat)

  /** The door side a loop watches. */
  datatype Side = Left | Right

  /** The number of acknowledgements in an event log. */
  function Acks(es: seq<Event>): nat {
    if |es| == 0 then 0 else (if es[0] == Acked then 1 else 0) + Acks(es[1..])
  }

  /** The number of notices in an event log. */
  function Notices(es: seq<Event>): nat {
    if |es| == 0 then 0 else (if es[0].Notified? then 1 else 0) + Notices(es[1..])
  }

  /** The number of times `f` was written. */
  function Writes(es: seq<Event>, f: Frame): nat {
    if |es| == 0 then 0 else (if es[0] == Wrote(f) then 1 else 0) + Writes(es[1..], f)
  }

  lemma {:induction false} CountsAppend(a: seq<Event>, b: seq<Event>, f: Frame)
    ensures Acks(a + b) == Acks(a) + Acks(b)
    ensures Notices(a + b) == Notices(a) + Notices(b)
    ensures Writes(a + b, f) == Writes(a, f) + Writes(b, f)
  {
    if |a| > 0 {
      assert (a + b)[1..] == a[1..] + b;
      CountsAppend(a[1..], b, f);
    } else {
      assert a + b == b;
    }
  }

  /** One acknowledgement and one notice, nothing written. */
  lemma AckAndNotice(n: Notice, f: Frame)
    ensures Acks([Acked, Notified(n)]) == 1 && Notices([Acked, Notified(n)]) == 1 && Writes([Acked, Notified(n)], f) == 0
  {
    var es := [Acked, Notified(n)];
    assert es[1..] == [Notified(n)] && es[1..][1..] == [];
    assert Acks(es[1..]) == 0 && Notices(es[1..]) == 1 && Writes(es[1..], f) == 0;
  }

  /** The status-check frame a probe wrote. */
  function CheckWrite(cmd: PlcCommand, p: Probe): seq<Event>
    requires p.Answer?
  {
    [Wrote(SimpleFrame(cmd, p.running))]
  }

  // ---------------------------------------------------------------------------
  // The complete flow: door (M38) and tray (M39) each round

  /**
   * The stop test of a complete-flow round, left side first: the left door
   * locked (31 or 30) with the left tray empty (tray 35, or door 34), else the
   * right door locked (32 or 30) with the right tray empty (tray 36, or door 34).
   */
  function CompleteStop(door: string, tray: string): Option<Side> {
    var leftLocked := door == "31" || door == "30";
    var rightLocked := door == "32" || door == "30";
    var leftEmpty := tray == "35" || door == "34";
    var rightEmpty := tray == "36" || door == "34";
    if leftLocked && leftEmpty then Some(Left)
    else if rightLocked && rightEmpty then Some(Right)
    else None
  }

  /**
   * The `door 34` alternatives never decide anything: a door reporting 34 is
   * not locked on either side. The loop stops on the left exactly for a door
   * of 30 or 31 with tray 35, and on the right exactly for a door of 30 or 32
   * with tray 36 that did not already stop on the left.
   */
  lemma CompleteStopTable(door: string, tray: string)
    ensures CompleteStop(door, tray) == Some(Left) <==> (door == "30" || door == "31") && tray == "35"
    ensures CompleteStop(door, tray) == Some(Right) <==> (door == "30" || door == "32") && tray == "36"
    ensures door == "34" ==> CompleteStop(door, tray) == None
  {
  }

  /** The door and tray checks of one answered round. */
  function RoundChecks(door: Probe, tray: Probe): seq<Event>
    requires door.Answer? && tray.Answer?
  {
    CheckWrite(CheckDoor, door) + CheckWrite(CheckTray, tray)
  }

  /** A stop after the round's checks `w`: the lights-off frame, then with a queued message the ack and the receive notice. */
  function StopEvents(w: seq<Event>, lightsOff: Frame, queued: bool, subject: Option<string>): seq<Event> {
    w + [Wrote(lightsOff)] + (if queued then [Acked, Notified(ReceiveNotice(subject))] else [])
  }

  /**
   * The loop of the complete flow, `left` rounds before the deadline. Each
   * round checks the door and then the tray; on a stop it writes the
   * lights-off frame and, when the queue holds a message, acknowledges it
   * and sends the receive notice; past the deadline it sends the timeout
   * notice without acknowledging.
   */
  function CompletePoll(probes: seq<Probe>, left: nat, lightsOff: Frame, queued: bool, subject: Option<string>): (r: Poll)
    ensures r.rounds <= left + 1
    ensures r.end == TimedOut ==> r.rounds == left + 1
    ensures r.end == Confirmed ==> r.rounds >= 1
    decreases |probes|
  {
    if |probes| == 0 then Poll([], Stalled, 0)
    else if probes[0].LookupError? then Poll([], Failed, 0)
    else if |probes| == 1 then Poll(CheckWrite(CheckDoor, probes[0]), Stalled, 0)
    else if probes[1].LookupError? then Poll(CheckWrite(CheckDoor, probes[0]), Failed, 0)
    else
      var w := RoundChecks(probes[0], probes[1]);
      if CompleteStop(probes[0].status, probes[1].status).Some? then
        Poll(StopEvents(w, lightsOff, queued, subject), Confirmed, 1)
      else if left == 0 then
        Poll(w + [Notified(TimeoutNotice(subject))], TimedOut, 1)
      else
        var rest := CompletePoll(probes[2..], left - 1, lightsOff, queued, subject);
        Poll(w + rest.events, rest.end, rest.rounds + 1)
  }

  /** Round `k` of the complete flow was answered in full. */
  predicate CompleteAnswered(probes: seq<Probe>, k: nat) {
    2 * k + 1 < |probes| && probes[2 * k].Answer? && probes[2 * k + 1].Answer?
  }

  /** Round `k` of the complete flow was answered and met the stop test. */
  predicate CompleteStopsAt(probes: seq<Probe>, k: nat) {
    CompleteAnswered(probes, k) && CompleteStop(probes[2 * k].status, probes[2 * k + 1].status).Some?
  }

  /** Round `k` of the complete flow was answered and did not meet the stop test. */
  predicate CompleteGoesOnAt(probes: seq<Probe>, k: nat) {
    CompleteAnswered(probes, k) && CompleteStop(probes[2 * k].status, probes[2 * k + 1].status).None?
  }

  lemma CompleteShift(probes: seq<Probe>, k: nat)
    requires |probes| >= 2
    ensures CompleteStopsAt(probes[2..], k) <==> CompleteStopsAt(probes, k + 1)
    ensures CompleteGoesOnAt(probes[2..], k) <==> CompleteGoesOnAt(probes, k + 1)
  {
    if 2 * k + 1 < |probes| - 2 {
      assert probes[2..][2 * k] == probes[2 * (k + 1)];
      assert probes[2..][2 * k + 1] == probes[2 * (k + 1) + 1];
    }
  }

  /**
   * The complete flow confirms exactly when some round within the budget
   * stops and every round before it was answered without stopping.
   */
  lemma CompleteConfirmedIff(probes: seq<Probe>, left: nat, lightsOff: Frame, queued: bool, subject: Option<string>)
    ensures CompletePoll(probes, left, lightsOff, queued, subject).end == Confirmed <==>
              exists k :: 0 <= k <= left && CompleteStopsAt(probes, k) && forall j :: 0 <= j < k ==> CompleteGoesOnAt(probes, j)
  {
    var r := CompletePoll(probes, left, lightsOff, queued, subject);
    if r.end == Confirmed {
      CompleteConfirmedAt(probes, left, lightsOff, queued, subject);
      assert 0 <= r.rounds - 1 <= left;
    }
    if exists k :: 0 <= k <= left && CompleteStopsAt(probes, k) && forall j :: 0 <= j < k ==> CompleteGoesOnAt(probes, j) {
      var k :| 0 <= k <= left && CompleteStopsAt(probes, k) && forall j :: 0 <= j < k ==> CompleteGoesOnAt(probes, j);
      CompleteReachesStop(probes, left, lightsOff, queued, subject, k);
    }
  }

  /** A confirmation happens in a round that stopped, after rounds that went on. */
  lemma {:induction false} CompleteConfirmedAt(probes: seq<Probe>, left: nat, lightsOff: Frame, queued: bool, subject: Option<string>)
    ensures var r := CompletePoll(probes, left, lightsOff, queued, subject);
            r.end == Confirmed ==> CompleteStopsAt(probes, r.rounds - 1) && forall j :: 0 <= j < r.rounds - 1 ==> CompleteGoesOnAt(probes, j)
    decreases |probes|
  {
    var r := CompletePoll(probes, left, lightsOff, queued, subject);
    CompleteFirstRound(probes, left, lightsOff, queued, subject);
    if r.end == Confirmed && !CompleteStopsAt(probes, 0) {
      var tail := probes[2..];
      var rest := CompletePoll(tail, left - 1, lightsOff, queued, subject);
      CompleteConfirmedAt(tail, left - 1, lightsOff, queued, subject);
      var k := rest.rounds - 1;
      CompleteShift(probes, k);
      forall j | 0 <= j < k + 1 ensures CompleteGoesOnAt(probes, j) {
        if j > 0 {
          assert CompleteGoesOnAt(tail, j - 1);
          CompleteShift(probes, j - 1);
        }
      }
    }
  }

  /** A confirmation in the first round is a stop there; a later one follows a first round that went on. */
  lemma CompleteFirstRound(probes: seq<Probe>, left: nat, lightsOff: Frame, queued: bool, subject: Option<string>)
    ensures var r := CompletePoll(probes, left, lightsOff, queued, subject);
      && (r.end == Confirmed && CompleteStopsAt(probes, 0) ==> r.rounds == 1)
      && (r.end == Confirmed && !CompleteStopsAt(probes, 0) ==>
            && CompleteGoesOnAt(probes, 0) && left > 0
            && r.end == CompletePoll(probes[2..], left - 1, lightsOff, queued, subject).end
            && r.rounds == CompletePoll(probes[2..], left - 1, lightsOff, queued, subject).rounds + 1)
  {
  }

  /** A round within the budget that stops, after rounds that went on, is where the loop confirms. */
  lemma {:induction false} CompleteReachesStop(probes: seq<Probe>, left: nat, lightsOff: Frame, queued: bool, subject: Option<string>, k: nat)
    requires k <= left && CompleteStopsAt(probes, k)
    requires forall j :: 0 <= j < k ==> CompleteGoesOnAt(probes, j)
    ensures CompletePoll(probes, left, lightsOff, queued, subject).end == Confirmed
    ensures CompletePoll(probes, left, lightsOff, queued, subject).rounds == k + 1
    decreases k
  {
    if k > 0 {
      assert CompleteGoesOnAt(probes, 0);
      var tail := probes[2..];
      CompleteShift(probes, k - 1);
      forall j | 0 <= j < k - 1 ensures CompleteGoesOnAt(tail, j) {
        CompleteShift(probes, j);
      }
      CompleteReachesStop(tail, left - 1, lightsOff, queued, subject, k - 1);
    }
  }

  /**
   * The side effects of the complete flow: the lights-off frame is written
   * once when the loop confirms and never otherwise; the message is
   * acknowledged (once) only on a confirmation with a queued message; one
   * notice goes out on such a confirmation or on the timeout, none otherwise.
   */
  lemma {:induction false} CompleteEffects(probes: seq<Probe>, left: nat, lightsOff: Frame, queued: bool, subject: Option<string>)
    requires lightsOff.mode != CheckDoor && lightsOff.mode != CheckTray
    ensures var r := CompletePoll(probes, left, lightsOff, queued, subject);
            && Writes(r.events, lightsOff) == (if r.end == Confirmed then 1 else 0)
            && Acks(r.events) == (if r.end == Confirmed && queued then 1 else 0)
            && Notices(r.events) == (if (r.end == Confirmed && queued) || r.end == TimedOut then 1 else 0)
    decreases |probes|
  {
    var r := CompletePoll(probes, left, lightsOff, queued, subject);
    if |probes| >= 2 && probes[0].Answer? && probes[1].Answer? {
      var w := RoundChecks(probes[0], probes[1]);
      RoundCounts(probes[0], probes[1], lightsOff);
      if CompleteStop(probes[0].status, probes[1].status).Some? {
        assert r == Poll(StopEvents(w, lightsOff, queued, subject), Confirmed, 1);
        StopCounts(w, lightsOff, queued, subject);
      } else if left == 0 {
        assert r == Poll(w + [Notified(TimeoutNotice(subject))], TimedOut, 1);
        CountsAppend(w, [Notified(TimeoutNotice(subject))], lightsOff);
      } else {
        var rest := CompletePoll(probes[2..], left - 1, lightsOff, queued, subject);
        assert r == Poll(w + rest.events, rest.end, rest.rounds + 1);
        CompleteEffects(probes[2..], left - 1, lightsOff, queued, subject);
        CountsAppend(w, rest.events, lightsOff);
      }
    }
  }

  /** The two status-check frames of a round are not the lights-off frame, and neither acknowledges nor notifies. */
  lemma RoundCounts(door: Probe, tray: Probe, lightsOff: Frame)
    requires door.Answer? && tray.Answer?
    requires lightsOff.mode != CheckDoor && lightsOff.mode != CheckTray
    ensures var w := RoundChecks(door, tray);
            Writes(w, lightsOff) == 0 && Acks(w) == 0 && Notices(w) == 0
  {
    CountsAppend(CheckWrite(CheckDoor, door), CheckWrite(CheckTray, tray), lightsOff);
  }

  /** The events of a stop after a round that wrote only status checks. */
  lemma StopCounts(w: seq<Event>, lightsOff: Frame, queued: bool, subject: Option<string>)
    requires Writes(w, lightsOff) == 0 && Acks(w) == 0 && Notices(w) == 0
    ensures var es := StopEvents(w, lightsOff, queued, subject);
      && Writes(es, lightsOff) == 1
      && Acks(es) == (if queued then 1 else 0)
      && Notices(es) == (if queued then 1 else 0)
  {
    var ack: seq<Event> := if queued then [Acked, Notified(ReceiveNotice(subject))] else [];
    CountsAppend(w, [Wrote(lightsOff)], lightsOff);
    CountsAppend(w + [Wrote(lightsOff)], ack, lightsOff);
    if queued {
      AckAndNotice(ReceiveNotice(subject), lightsOff);
    }
  }

  // ---------------------------------------------------------------------------
  // The receive flow: one tray check picks the side, then door checks

  /** The side the receive flow watches: 35 or 34 the left, 36 the right, nothing otherwise (37, or anything else). */
  function ReceiveSide(tray: string): (r: Option<Side>)
    ensures r == Some(Left) <==> tray == "35" || tray == "34"
    ensures r == Some(Right) <==> tray == "36"
  {
    if tray == "35" || tray == "34" then Some(Left)
    else if tray == "36" then Some(Right)
    else None
  }

  /** The watched side's door is locked: 30 or 31 on the left, 30 or 32 on the right. */
  predicate DoorLocked(side: Side, door: string) {
    door == "30" || (side == Left && door == "31") || (side == Right && door == "32")
  }

  /** The door loop of the receive flow: acknowledge and notify on the lock; only notify on the timeout. */
  function ReceiveDoorPoll(side: Side, probes: seq<Probe>, left: nat, subject: Option<string>): (r: Poll)
    ensures r.rounds <= left + 1
    ensures r.end == TimedOut ==> r.rounds == left + 1
    decreases |probes|
  {
    if |probes| == 0 then Poll([], Stalled, 0)
    else if probes[0].LookupError? then Poll([], Failed, 0)
    else
      var w := CheckWrite(CheckDoor, probes[0]);
      if DoorLocked(side, probes[0].status) then
        Poll(w + [Acked, Notified(ReceiveNotice(subject))], Confirmed, 1)
      else if left == 0 then
        Poll(w + [Notified(TimeoutNotice(subject))], TimedOut, 1)
      else
        var rest := ReceiveDoorPoll(side, probes[1..], left - 1, subject);
        Poll(w + rest.events, rest.end, rest.rounds + 1)
  }

  /** What the receive flow did: the tray check, then the door loop when the tray picked a side. */
  datatype ReceiveRun = ReceiveRun(events: seq<Event>, side: Option<Side>, end: Option<End>)

  /**
   * The receive flow: the tray check, then the door loop for the side it
   * picked. A failed lookup anywhere ends the flow quietly: the error is
   * caught and logged, and the request still succeeds.
   */
  function ReceiveFlow(probes: seq<Probe>, left: nat, subject: Option<string>): (r: ReceiveRun)
    ensures r.side.Some? <==> |probes| > 0 && probes[0].Answer? && ReceiveSide(probes[0].status).Some?
    ensures r.side.None? ==> Acks(r.events) == 0 && Notices(r.events) == 0
  {
    if |probes| == 0 then ReceiveRun([], None, Some(Stalled))
    else if probes[0].LookupError? then ReceiveRun([], None, Some(Failed))
    else
      var w := CheckWrite(CheckTray, probes[0]);
      match ReceiveSide(probes[0].status)
      case None => ReceiveRun(w, None, None)
      case Some(side) =>
        var poll := ReceiveDoorPoll(side, probes[1..], left, subject);
        ReceiveRun(w + poll.events, Some(side), Some(poll.end))
  }

  /**
   * The receive flow acknowledges at most once, exactly when the watched door
   * locked within the budget, and sends one notice on the lock or on the
   * timeout.
   */
  lemma {:induction false} ReceiveEffects(side: Side, probes: seq<Probe>, left: nat, subject: Option<string>)
    ensures var r := ReceiveDoorPoll(side, probes, left, subject);
            && Acks(r.events) == (if r.end == Confirmed then 1 else 0)
            && Notices(r.events) == (if r.end == Confirmed || r.end == TimedOut then 1 else 0)
    decreases |probes|
  {
    var r := ReceiveDoorPoll(side, probes, left, subject);
    if |probes| > 0 && probes[0].Answer? {
      var w := CheckWrite(CheckDoor, probes[0]);
      var f := SimpleFrame(CheckDoor, 0);
      if DoorLocked(side, probes[0].status) {
        CountsAppend(w, [Acked, Notified(ReceiveNotice(subject))], f);
        AckAndNotice(ReceiveNotice(subject), f);
      } else if left == 0 {
        CountsAppend(w, [Notified(TimeoutNotice(subject))], f);
      } else {
        var rest := ReceiveDoorPoll(side, probes[1..], left - 1, subject);
        ReceiveEffects(side, probes[1..], left - 1, subject);
        CountsAppend(w, rest.events, f);
      }
    }
  }

  /**
   * The receive door loop confirms exactly when some round within the budget
   * finds the watched door locked after every earlier round found it open.
   */
  lemma {:induction false} ReceiveConfirmedIff(side: Side, probes: seq<Probe>, left: nat, subject: Option<string>)
    ensures ReceiveDoorPoll(side, probes, left, subject).end == Confirmed <==>
              exists k :: 0 <= k <= left && LockedAt(side, probes, k) && forall j :: 0 <= j < k ==> OpenAt(side, probes, j)
    decreases |probes|
  {
    var r := ReceiveDoorPoll(side, probes, left, subject);
    if |probes| > 0 && probes[0].Answer? {
      if LockedAt(side, probes, 0) {
      } else if left == 0 {
        assert !LockedAt(side, probes, 0);
      } else {
        var tail := probes[1..];
        ReceiveConfirmedIff(side, tail, left - 1, subject);
        assert OpenAt(side, probes, 0);
        if r.end == Confirmed {
          var k :| 0 <= k <= left - 1 && LockedAt(side, tail, k) && forall j :: 0 <= j < k ==> OpenAt(side, tail, j);
          assert tail[k] == probes[k + 1];
          forall j | 0 <= j < k + 1 ensures OpenAt(side, probes, j) {
            if j > 0 {
              assert OpenAt(side, tail, j - 1);
              assert tail[j - 1] == probes[j];
            }
          }
          assert LockedAt(side, probes, k + 1);
        } else {
          forall k | 0 <= k <= left && LockedAt(side, probes, k)
            ensures exists j :: 0 <= j < k && !OpenAt(side, probes, j)
          {
            assert k > 0 && tail[k - 1] == probes[k];
            assert LockedAt(side, tail, k - 1);
            assert !(forall j :: 0 <= j < k - 1 ==> OpenAt(side, tail, j));
            var j :| 0 <= j < k - 1 && !OpenAt(side, tail, j);
            assert tail[j] == probes[j + 1];
            assert !OpenAt(side, probes, j + 1);
          }
        }
      }
    } else {
      forall k | 0 <= k <= left && LockedAt(side, probes, k)
        ensures exists j :: 0 <= j < k && !OpenAt(side, probes, j)
      {
        assert !OpenAt(side, probes, 0);
      }
    }
  }

  /** Door check `k` was answered with the watched side locked. */
  predicate LockedAt(side: Side, probes: seq<Probe>, k: nat) {
    k < |probes| && probes[k].Answer? && DoorLocked(side, probes[k].status)
  }

  /** Door check `k` was answered with the watched side still open. */
  predicate OpenAt(side: Side, probes: seq<Probe>, k: nat) {
    k < |probes| && probes[k].Answer? && !DoorLocked(side, probes[k].status)
  }

  // ---------------------------------------------------------------------------
  // `received`: door checks until both doors lock

  /**
   * The loop of `received`: door checks until the door reports 30; both the
   * lock and the timeout acknowledge the message and send a notice.
   */
  function ReceivedPoll(probes: seq<Probe>, left: nat, subject: Option<string>): (r: Poll)
    ensures r.rounds <= left + 1
    ensures r.end == TimedOut ==> r.rounds == left + 1
    decreases |probes|
  {
    if |probes| == 0 then Poll([], Stalled, 0)
    else if probes[0].LookupError? then Poll([], Failed, 0)
    else
      var w := CheckWrite(CheckDoor, probes[0]);
      if probes[0].status == "30" then
        Poll(w + [Acked, Notified(ReceiveNotice(subject))], Confirmed, 1)
      else if left == 0 then
        Poll(w + [Acked, Notified(TimeoutNotice(subject))], TimedOut, 1)
      else
        var rest := ReceivedPoll(probes[1..], left - 1, subject);
        Poll(w + rest.events, rest.end, rest.rounds + 1)
  }

  /**
   * Unlike the other two loops, `received` acknowledges on the timeout too:
   * it acknowledges once and notifies once whenever the loop finishes, and
   * does neither while it waits or after a failed lookup.
   */
  lemma {:induction false} ReceivedEffects(probes: seq<Probe>, left: nat, subject: Option<string>)
    ensures var r := ReceivedPoll(probes, left, subject);
            && Acks(r.events) == (if r.end == Confirmed || r.end == TimedOut then 1 else 0)
            && Notices(r.events) == Acks(r.events)
    decreases |probes|
  {
    var r := ReceivedPoll(probes, left, subject);
    if |probes| > 0 && probes[0].Answer? {
      var w := CheckWrite(CheckDoor, probes[0]);
      var f := SimpleFrame(CheckDoor, 0);
      if probes[0].status == "30" {
        CountsAppend(w, [Acked, Notified(ReceiveNotice(subject))], f);
        AckAndNotice(ReceiveNotice(subject), f);
      } else if left == 0 {
        CountsAppend(w, [Acked, Notified(TimeoutNotice(subject))], f);
        AckAndNotice(TimeoutNotice(subject), f);
      } else {
        var rest := ReceivedPoll(probes[1..], left - 1, subject);
        ReceivedEffects(probes[1..], left - 1, subject);
        CountsAppend(w, rest.events, f);
      }
    }
  }

  /** Every frame in the log is a door check. */
  predicate OnlyDoorChecks(es: seq<Event>) {
    forall i :: 0 <= i < |es| && es[i].Wrote? ==> es[i].frame.mode == CheckDoor
  }

  /** Every frame the `received` loop writes is a door check. */
  lemma {:induction false} ReceivedWritesDoorChecks(probes: seq<Probe>, left: nat, subject: Option<string>)
    ensures OnlyDoorChecks(ReceivedPoll(probes, left, subject).events)
    decreases |probes|
  {
    var r := ReceivedPoll(probes, left, subject);
    if |probes| > 0 && probes[0].Answer? && probes[0].status != "30" && left > 0 {
      var rest := ReceivedPoll(probes[1..], left - 1, subject);
      ReceivedWritesDoorChecks(probes[1..], left - 1, subject);
      assert r.events == CheckWrite(CheckDoor, probes[0]) + rest.events;
      forall i | 1 <= i < |r.events| && r.events[i].Wrote? ensures r.events[i].frame.mode == CheckDoor {
        assert r.events[i] == rest.events[i - 1];
      }
    }
  }
}

=== FILE: decimal.dfy ===
/**
 * Decimal text of natural numbers, as the frame codec uses it: the template
 * rendering `${n}`, the zero padding helper `pad(n, w)`, `parseInt` on a run of
 * digits, and `.slice(-2)`.
 */
module Decimal {

  predicate IsDigit(c: char) {
    '0' <= c <= '9'
  }

  predicate AllDigits(s: string) {
    forall i :: 0 <= i < |s| ==> IsDigit(s[i])
  }

  /** Digit strings without superfluous leading zeros: the shape `${n}` produces. */
  predicate Canonical(s: string) {
    |s| >= 1 && AllDigits(s) && (s[0] == '0' ==> |s| == 1)
  }

  function Pow10(k: nat): (p: nat)
    ensures p >= 1
  {
    if k == 0 then 1 else 10 * Pow10(k - 1)
  }

  function DigitChar(d: nat): (c: char)
    requires d < 10
    ensures IsDigit(c)
  {
    (48 + d) as char
  }

  function DigitValue(c: char): (d: nat)
    requires IsDigit(c)
    ensures d < 10 && DigitChar(d) == c
  {
    (c as int) - 48
  }

  /** `${n}` for a non-negative integer: its shortest decimal form. */
  function Show(n: nat): (s: string)
    ensures Canonical(s)
  {
    if n < 10 then [DigitChar(n)] else Show(n / 10) + [DigitChar(n % 10)]
  }

  /** The value of a run of decimal digits (`parseInt` on such a run; 0 for the empty run). */
  function Read(s: string): nat
    requires AllDigits(s)
  {
    if |s| == 0 then 0 else Read(s[..|s| - 1]) * 10 + DigitValue(s[|s| - 1])
  }

  function Zeros(k: nat): (z: string)
    ensures |z| == k && forall i :: 0 <= i < k ==> z[i] == '0'
  {
    seq(k, _ => '0')
  }

  /** `pad(n, w)`: left-pads the decimal form of `n` with zeros to width `w`; never truncates. */
  function Pad(n: nat, w: nat): (s: string)
    ensures AllDigits(s) && Read(s) == n
    ensures |s| == if |Show(n)| < w then w else |Show(n)|
    ensures |s| >= w
  {
    var t := Show(n);
    ReadShow(n);
    if |t| < w then
      ReadZerosPrefix(w - |t|, t);
      Zeros(w - |t|) + t
    else
      t
  }

  /** `s.slice(-2)`: the last two characters, or all of `s` when it is shorter. */
  function LastTwo(s: string): (r: string)
    ensures |r| == if |s| < 2 then |s| else 2
    ensures r <= s || (|s| >= 2 && r == s[|s| - 2..])
  {
    if |s| <= 2 then s else s[|s| - 2..]
  }

  /** Reading back the shortest decimal form gives the number. */
  lemma {:induction false} ReadShow(n: nat)
    ensures Read(Show(n)) == n
  {
    if n >= 10 {
      var t := Show(n);
      assert t[..|t| - 1] == Show(n / 10);
      ReadShow(n / 10);
    }
  }

  /** Reading a concatenation: the left part is shifted by the width of the right part. */
  lemma {:induction false} ReadAppend(a: string, b: string)
    requires AllDigits(a) && AllDigits(b)
    ensures AllDigits(a + b)
    ensures Read(a + b) == Read(a) * Pow10(|b|) + Read(b)
  {
    DigitsAppend(a, b);
    var ab := a + b;
    if |b| == 0 {
      assert ab == a;
    } else {
      var b' := b[..|b| - 1];
      var c := b[|b| - 1];
      assert ab[..|ab| - 1] == a + b';
      assert ab[|ab| - 1] == c;
      DigitsAppend(a, b');
      ReadAppend(a, b');
      var x, p, y, d := Read(a), Pow10(|b'|), Read(b'), DigitValue(c);
      assert Read(ab) == Read(a + b') * 10 + d;
      assert Read(a + b') == x * p + y;
      assert Read(b) == y * 10 + d;
      assert Pow10(|b|) == p * 10;
      ShiftDigit(x, p, y, d);
    }
  }

  lemma DigitsAppend(a: string, b: string)
    requires AllDigits(a) && AllDigits(b)
    ensures AllDigits(a + b)
  {
    var ab := a + b;
    forall i | 0 <= i < |ab| ensures IsDigit(ab[i]) {
      if i < |a| { assert ab[i] == a[i]; } else { assert ab[i] == b[i - |a|]; }
    }
  }

  lemma ShiftDigit(x: int, p: int, y: int, d: int)
    ensures (x * p + y) * 10 + d == x * (p * 10) + (y * 10 + d)
  {
  }

  lemma {:induction false} ReadZeros(k: nat)
    ensures Read(Zeros(k)) == 0
  {
    if k > 0 {
      assert Zeros(k)[..k - 1] == Zeros(k - 1);
      ReadZeros(k - 1);
    }
  }

  lemma ReadZerosPrefix(k: nat, t: string)
    requires AllDigits(t)
    ensures AllDigits(Zeros(k) + t) && Read(Zeros(k) + t) == Read(t)
  {
    ReadZeros(k);
    ReadAppend(Zeros(k), t);
  }

  /** A run of `k` digits denotes a number below 10^k. */
  lemma {:induction false} ReadBound(s: string)
    requires AllDigits(s)
    ensures Read(s) < Pow10(|s|)
  {
    if |s| > 0 {
      ReadBound(s[..|s| - 1]);
    }
  }

  /** Digit runs of equal length are equal exactly when their values are. */
  lemma {:induction false} ReadInjective(a: string, b: string)
    requires AllDigits(a) && AllDigits(b) && |a| == |b|
    requires Read(a) == Read(b)
    ensures a == b
  {
    if |a| > 0 {
      var n := |a| - 1;
      var da, db := DigitValue(a[n]), DigitValue(b[n]);
      var ra, rb := Read(a[..n]), Read(b[..n]);
      assert ra * 10 + da == rb * 10 + db;
      assert ra == (ra * 10 + da) / 10 && da == (ra * 10 + da) % 10;
      assert rb == (rb * 10 + db) / 10 && db == (rb * 10 + db) % 10;
      ReadInjective(a[..n], b[..n]);
      assert a == a[..n] + [a[n]] && b == b[..n] + [b[n]];
    }
  }

  /** The shortest decimal form of a number below 10^k has at most k digits. */
  lemma ShowLength(n: nat, k: nat)
    requires 1 <= k && n < Pow10(k)
    ensures |Show(n)| <= k
  {
    var t := Show(n);
    ReadShow(n);
    LeadingDigit(t);
    PowOrder(|t| - 1, k);
  }

  /** A canonical run of two or more digits is at least 10^(length - 1). */
  lemma LeadingDigit(s: string)
    requires Canonical(s)
    ensures |s| >= 2 ==> Read(s) >= Pow10(|s| - 1)
  {
    if |s| >= 2 {
      assert s == s[..1] + s[1..];
      ReadAppend(s[..1], s[1..]);
      assert s[..1][..0] == [];
    }
  }

  lemma {:induction false} PowMonotone(i: nat, j: nat)
    requires i <= j
    ensures Pow10(i) <= Pow10(j)
  {
    if i < j {
      PowMonotone(i, j - 1);
    }
  }

  lemma PowOrder(i: nat, j: nat)
    ensures Pow10(i) < Pow10(j) ==> i < j
  {
    if j <= i {
      PowMonotone(j, i);
    }
  }

  /** Padding to width w a number below 10^w yields exactly w digits. */
  lemma PadWidth(n: nat, w: nat)
    requires 1 <= w && n < Pow10(w)
    ensures |Pad(n, w)| == w
  {
    ShowLength(n, w);
  }

  /** Every fixed-width run of digits is the padding of its own value: `pad` is onto fixed-width fields. */
  lemma PadRead(s: string)
    requires 1 <= |s| && AllDigits(s)
    ensures Pad(Read(s), |s|) == s
  {
    ReadBound(s);
    PadWidth(Read(s), |s|);
    ReadInjective(Pad(Read(s), |s|), s);
  }

  /** A canonical digit run is the shortest decimal form of its value. */
  lemma {:induction false} ShowRead(s: string)
    requires Canonical(s)
    ensures Show(Read(s)) == s
  {
    var n := |s| - 1;
    if n == 0 {
      assert s[..0] == [];
      assert s == [s[0]];
    } else {
      var p := s[..n];
      assert p[0] == s[0];
      ShowRead(p);
      LeadingDigit(p);
      var v, d := Read(p), DigitValue(s[n]);
      assert v >= 1;
      assert (v * 10 + d) / 10 == v && (v * 10 + d) % 10 == d;
      assert s == p + [s[n]];
    }
  }

  /** `pad(n, 2).slice(-2)` is the two-digit rendering of n mod 100. */
  lemma LastTwoOfPad(n: nat)
    ensures |LastTwo(Pad(n, 2))| == 2
    ensures AllDigits(LastTwo(Pad(n, 2)))
    ensures Read(LastTwo(Pad(n, 2))) == n % 100
  {
    var s := Pad(n, 2);
    DigitsSuffix(s, |s| - 2);
    LastTwoRead(s);
    assert LastTwo(s) == s[|s| - 2..];
  }

  lemma DigitsSuffix(s: string, k: nat)
    requires AllDigits(s) && k <= |s|
    ensures AllDigits(s[k..])
  {
    forall i | 0 <= i < |s| - k ensures IsDigit(s[k..][i]) {
      assert s[k..][i] == s[k + i];
    }
  }

  /** The last two digits of a run read as its value mod 100. */
  lemma LastTwoRead(s: string)
    requires AllDigits(s) && |s| >= 2
    ensures AllDigits(s[|s| - 2..]) && Read(s[|s| - 2..]) == Read(s) % 100
  {
    var n := |s|;
    var t := s[n - 2..];
    DigitsSuffix(s, n - 2);
    assert t[0] == s[n - 2] && t[1] == s[n - 1];
    var d1, d0 := DigitValue(t[0]), DigitValue(t[1]);
    var hi := ReadDropTwo(s);
    assert Read(s) == (hi * 10 + d1) * 10 + d0;
    ReadTwo(t);
    assert Read(t) == d1 * 10 + d0;
    LowDigits(Read(s), hi, d1, d0);
  }

  /** A two-digit run reads as ten times its first digit plus its second. */
  lemma ReadTwo(t: string)
    requires AllDigits(t) && |t| == 2
    ensures Read(t) == DigitValue(t[0]) * 10 + DigitValue(t[1])
  {
    assert t[..1][..0] == [] && t[..1][0] == t[0];
    assert Read(t[..1]) == DigitValue(t[0]);
  }

  /** Peeling the last two digits of a run. */
  lemma ReadDropTwo(s: string) returns (hi: nat)
    requires AllDigits(s) && |s| >= 2
    ensures hi == Read(s[..|s| - 2])
    ensures Read(s) == (hi * 10 + DigitValue(s[|s| - 2])) * 10 + DigitValue(s[|s| - 1])
  {
    var n := |s|;
    var p := s[..n - 1];
    assert p[..n - 2] == s[..n - 2] && p[n - 2] == s[n - 2];
    hi := Read(s[..n - 2]);
    assert Read(p) == hi * 10 + DigitValue(s[n - 2]);
  }

  lemma LowDigits(v: nat, hi: nat, d1: nat, d0: nat)
    requires d1 < 10 && d0 < 10 && v == (hi * 10 + d1) * 10 + d0
    ensures v % 100 == d1 * 10 + d0
  {
    assert v == hi * 100 + (d1 * 10 + d0);
  }
}

=== FILE: frame_codec.dfy ===
/**
 * The command frame codec: `calculateChecksum`, `createPlcCommand` and
 * `createSimpleCommand`, the frames the services build inline, and a decoder
 * that reads every field back from its fixed offset.
 *
 * Layout: `B00R ff C pp Q qqqq L cc Mxx T00N <running> D4500 S <checksum>`.
 */
module FrameCodec {
  import opened Wrappers
  import opened Decimal
  import opened PlcTypes

  /** `calculateChecksum`: the last two decimal digits of the sum of its eight arguments. */
  function CalculateChecksum(
    floor: nat, position: nat, qty: nat, color: nat,
    commandValue: nat, returnValue: nat, transition: nat, device: nat
  ): (r: string)
    ensures |r| == 2 && AllDigits(r)
    ensures Read(r) == (floor + position + qty + color + commandValue + returnValue + transition + device) % 100
    ensures r == Pad((floor + position + qty + color + commandValue + returnValue + transition + device) % 100, 2)
  {
    var total := 0 + floor + position + qty + color + commandValue + returnValue + transition + device;
    LastTwoOfPad(total);
    var r := LastTwo(Pad(total, 2));
    PadWidth(total % 100, 2);
    ReadInjective(r, Pad(total % 100, 2));
    r
  }

  /**
   * The template literal `createPlcCommand` returns, over the texts of its
   * fields: `B00R${floor}C${position}Q${qty}L${color}${mode}T00N${running}D${device}S${checksum}`.
   */
  function Template(floor: string, position: string, qty: string, color: string, mode: string,
                    running: string, checksum: string): string
  {
    "B00R" + (floor + ("C" + (position + ("Q" + (qty + ("L" + Tail(color, mode, running, checksum)))))))
  }

  /** The template from the colour on: `${color}${mode}T00N${running}D${device}S${checksum}`. */
  function Tail(color: string, mode: string, running: string, checksum: string): string {
    color + (mode + ("T00N" + (running + ("D" + (DeviceText + ("S" + checksum))))))
  }

  /**
   * `createPlcCommand`: the full frame. The checksum covers floor, position,
   * quantity, colour, the numeric mode, a return value of 0, the running
   * number and the device number; the colour defaults to 1.
   */
  function CreatePlcCommand(
    floor: nat, position: nat, qty: nat, mode: PlcCommand, running: nat, color: nat := 1
  ): string
  {
    var commandValue := ModeValue(mode);
    var returnValue := 0;
    var checksum := CalculateChecksum(floor, position, qty, color, commandValue, returnValue, running, Device);
    Template(Pad(floor, 2), Pad(position, 2), Pad(qty, 4), Pad(color, 2), Code(mode), Show(running), checksum)
  }

  /**
   * Every frame starts `B00R` and ends with the two-digit sum of its fields,
   * mode number, running number and device number, mod 100.
   */
  lemma FrameEnds(floor: nat, position: nat, qty: nat, mode: PlcCommand, running: nat, color: nat)
    ensures var r := CreatePlcCommand(floor, position, qty, mode, running, color);
      |r| >= 33 && r[..4] == "B00R"
      && r[|r| - 2..] == Pad((floor + position + qty + color + ModeValue(mode) + running + Device) % 100, 2)
  {
    var total := floor + position + qty + color + ModeValue(mode) + running + Device;
    var checksum := CalculateChecksum(floor, position, qty, color, ModeValue(mode), 0, running, Device);
    assert checksum == Pad(total % 100, 2);
    var f, p, q, c, m, t := Pad(floor, 2), Pad(position, 2), Pad(qty, 4), Pad(color, 2), Code(mode), Show(running);
    assert CreatePlcCommand(floor, position, qty, mode, running, color) == Template(f, p, q, c, m, t, checksum);
    CodeLength(mode);
    TemplateEnds(f, p, q, c, m, t, checksum);
  }

  /** The template literal `createSimpleCommand` returns: floor, position and quantity written as zeros. */
  function SimpleTemplate(color: string, mode: string, running: string, checksum: string): string {
    "B00R00C00Q0000L" + color + mode + "T00N" + running + "D" + DeviceText + "S" + checksum
  }

  /**
   * `createSimpleCommand`: a frame with floor, position and quantity zeroed;
   * the colour defaults to 0 here where `createPlcCommand` defaults it to 1.
   */
  function CreateSimpleCommand(mode: PlcCommand, running: nat, color: nat := 0): (r: string)
    ensures r == CreatePlcCommand(0, 0, 0, mode, running, color)
  {
    var floor, position, qty := 0, 0, 0;
    var commandValue := ModeValue(mode);
    var returnValue := 0;
    var checksum := CalculateChecksum(floor, position, qty, color, commandValue, returnValue, running, Device);
    ZeroFields();
    SimpleIsTemplate(Pad(color, 2), Code(mode), Show(running), checksum);
    SimpleTemplate(Pad(color, 2), Code(mode), Show(running), checksum)
  }

  lemma ZeroFields()
    ensures Pad(0, 2) == "00" && Pad(0, 4) == "0000"
  {
  }

  lemma CodeLength(c: PlcCommand)
    ensures |Code(c)| == 3
  {
  }

  lemma DeviceRendering()
    ensures Show(Device) == DeviceText
  {
  }

  lemma SimpleIsTemplate(color: string, mode: string, running: string, checksum: string)
    ensures SimpleTemplate(color, mode, running, checksum) == Template("00", "00", "0000", color, mode, running, checksum)
  {
  }

  /**
   * The status-check frame the services build by hand rather than through the
   * codec: colour `00`, zero fields, and checksum `pad(m + running + 4500, 2).slice(-2)`,
   * where `token` is the mode token written and `m` the number summed for it.
   */
  function InlineFrame(token: string, m: nat, running: nat): string {
    var sumValue := 0 + 0 + 0 + 0 + 0 + m + 0 + running + 4500;
    var sum := LastTwo(Pad(sumValue, 2));
    "B00R00C00Q0000L00" + token + "T00N" + Show(running) + "D4500S" + sum
  }

  lemma InlineIsTemplate(token: string, running: string, sum: string)
    ensures "B00R00C00Q0000L00" + token + "T00N" + running + "D4500S" + sum
         == SimpleTemplate("00", token, running, sum)
  {
  }

  /** The inline frame for a command, `m` being `parseInt(cmd.slice(1))`, is the codec's simple frame. */
  lemma InlineCheckFrame(cmd: PlcCommand, running: nat)
    ensures InlineFrame(Code(cmd), ModeValue(cmd), running) == CreateSimpleCommand(cmd, running)
  {
    var m := ModeValue(cmd);
    var sum := InlineChecksum(m, running);
    assert Pad(0, 2) == "00";
    InlineIsTemplate(Code(cmd), Show(running), sum);
  }

  /** The inline checksum `pad(m + running + 4500, 2).slice(-2)` is `calculateChecksum` of the simple frame. */
  lemma InlineChecksum(m: nat, running: nat) returns (sum: string)
    ensures sum == LastTwo(Pad(0 + 0 + 0 + 0 + 0 + m + 0 + running + 4500, 2))
    ensures sum == CalculateChecksum(0, 0, 0, 0, m, 0, running, Device)
  {
    var total := m + running + 4500;
    sum := LastTwo(Pad(total, 2));
    LastTwoOfPad(total);
    PadWidth(total % 100, 2);
    ReadInjective(sum, Pad(total % 100, 2));
  }

  /** The first four and the last two characters of a template. */
  lemma TemplateEnds(floor: string, position: string, qty: string, color: string, mode: string,
                     running: string, checksum: string)
    requires |floor| >= 2 && |position| >= 2 && |qty| >= 4 && |color| >= 2 && |mode| == 3 && |running| >= 1
    requires |checksum| == 2
    ensures var s := Template(floor, position, qty, color, mode, running, checksum);
      |s| >= 33 && s[..4] == "B00R" && s[|s| - 2..] == checksum
  {
    TemplateLayout(floor, position, qty, color, mode, running, checksum);
  }

  /** Where each piece of a template sits, whatever the widths of its fields. */
  lemma TemplateLayout(floor: string, position: string, qty: string, color: string, mode: string,
                       running: string, checksum: string)
    ensures var s := Template(floor, position, qty, color, mode, running, checksum);
      var o1 := 4 + |floor|;
      var o2 := o1 + 1;
      var o3 := o2 + |position|;
      var o4 := o3 + 1;
      var o5 := o4 + |qty|;
      var o6 := o5 + 1;
      var o7 := o6 + |color|;
      var o8 := o7 + |mode|;
      var o9 := o8 + 4;
      var o10 := o9 + |running|;
      && o10 + 6 <= |s| && s[..4] == "B00R" && s[4..o1] == floor && s[o1..o2] == "C" && s[o2..o3] == position
      && s[o3..o4] == "Q" && s[o4..o5] == qty && s[o5..o6] == "L" && s[o6..o7] == color && s[o7..o8] == mode
      && s[o8..o9] == "T00N" && s[o9..o10] == running && s[o10..o10 + 6] == "D4500S" && s[o10 + 6..] == checksum
  {
    var s := Template(floor, position, qty, color, mode, running, checksum);
    var t := Tail(color, mode, running, checksum);
    assert s[..4] == "B00R" && s[4..] == floor + ("C" + (position + ("Q" + (qty + ("L" + t)))));
    HeadLayout(s, 4, floor, position, qty, t);
    TailLayout(s, 4 + |floor| + 1 + |position| + 1 + |qty| + 1, color, mode, running, checksum);
  }

  /** The pieces up to the `L`, wherever they start. */
  lemma HeadLayout(s: string, i: nat, floor: string, position: string, qty: string, t: string)
    requires i <= |s| && s[i..] == floor + ("C" + (position + ("Q" + (qty + ("L" + t)))))
    ensures var o1 := i + |floor|;
      var o2 := o1 + 1;
      var o3 := o2 + |position|;
      var o4 := o3 + 1;
      var o5 := o4 + |qty|;
      var o6 := o5 + 1;
      && o6 <= |s| && s[i..o1] == floor && s[o1..o2] == "C" && s[o2..o3] == position
      && s[o3..o4] == "Q" && s[o4..o5] == qty && s[o5..o6] == "L" && s[o6..] == t
  {
    Peel(s, i, floor, "C" + (position + ("Q" + (qty + ("L" + t)))));
    var o1 := i + |floor|;
    Peel(s, o1, "C", position + ("Q" + (qty + ("L" + t))));
    var o2 := o1 + 1;
    Peel(s, o2, position, "Q" + (qty + ("L" + t)));
    var o3 := o2 + |position|;
    Peel(s, o3, "Q", qty + ("L" + t));
    var o4 := o3 + 1;
    Peel(s, o4, qty, "L" + t);
    var o5 := o4 + |qty|;
    Peel(s, o5, "L", t);
  }

  /** The pieces from the colour on, wherever they start. */
  lemma TailLayout(s: string, j: nat, color: string, mode: string, running: string, checksum: string)
    requires j <= |s| && s[j..] == Tail(color, mode, running, checksum)
    ensures var k1 := j + |color|;
      var k2 := k1 + |mode|;
      var k3 := k2 + 4;
      var k4 := k3 + |running|;
      && k4 + 6 <= |s| && s[j..k1] == color && s[k1..k2] == mode && s[k2..k3] == "T00N"
      && s[k3..k4] == running && s[k4..k4 + 6] == "D4500S" && s[k4 + 6..] == checksum
  {
    var t4 := "D" + (DeviceText + ("S" + checksum));
    assert t4 == "D4500S" + checksum;
    Peel(s, j, color, mode + ("T00N" + (running + t4)));
    var k1 := j + |color|;
    Peel(s, k1, mode, "T00N" + (running + t4));
    var k2 := k1 + |mode|;
    Peel(s, k2, "T00N", running + t4);
    var k3 := k2 + 4;
    Peel(s, k3, running, t4);
    var k4 := k3 + |running|;
    Peel(s, k4, "D4500S", checksum);
  }

  /** Splitting a suffix that is a concatenation: its first part and the rest sit side by side. */
  lemma Peel(s: string, i: nat, a: string, b: string)
    requires i <= |s| && s[i..] == a + b
    ensures i + |a| <= |s| && s[i..i + |a|] == a && s[i + |a|..] == b
  {
    assert s[i..i + |a|] == (a + b)[..|a|];
    assert s[i + |a|..] == (a + b)[|a|..];
  }

  /** A suffix is the slice up to any later point followed by the rest. */
  lemma Glue(s: string, i: nat, j: nat)
    requires i <= j <= |s|
    ensures s[i..] == s[i..j] + s[j..]
  {
  }

  /** Each field of a template sits at its fixed offset when the fields have their fixed widths. */
  lemma TemplateFields(floor: string, position: string, qty: string, color: string, mode: string,
                       running: string, checksum: string)
    requires |floor| == 2 && |position| == 2 && |qty| == 4 && |color| == 2 && |mode| == 3 && |checksum| == 2
    ensures var s := Template(floor, position, qty, color, mode, running, checksum);
      && |s| == 32 + |running|
      && s[..4] == "B00R" && s[4..6] == floor && s[6] == 'C' && s[7..9] == position && s[9] == 'Q'
      && s[10..14] == qty && s[14] == 'L' && s[15..17] == color && s[17..20] == mode && s[20..24] == "T00N"
      && s[24..|s| - 8] == running && s[|s| - 8..|s| - 2] == "D4500S" && s[|s| - 2..] == checksum
  {
    TemplateLayout(floor, position, qty, color, mode, running, checksum);
    var s := Template(floor, position, qty, color, mode, running, checksum);
    assert s[6..7] == "C" && s[9..10] == "Q" && s[14..15] == "L";
  }

  /** A text with the template's literals at their offsets is the template of its own field slices. */
  lemma TemplateJoin(s: string)
    requires |s| >= 32
    requires s[..4] == "B00R" && s[6] == 'C' && s[9] == 'Q' && s[14] == 'L' && s[20..24] == "T00N"
    requires s[|s| - 8..|s| - 2] == "D4500S"
    ensures s == Template(s[4..6], s[7..9], s[10..14], s[15..17], s[17..20], s[24..|s| - 8], s[|s| - 2..])
  {
    var n := |s|;
    Glue(s, n - 8, n - 2);
    assert s[n - 8..] == "D" + (DeviceText + ("S" + s[n - 2..]));
    Glue(s, 24, n - 8);
    Glue(s, 20, 24);
    Glue(s, 17, 20);
    Glue(s, 15, 17);
    Glue(s, 14, 15);
    assert s[14..15] == "L";
    Glue(s, 10, 14);
    Glue(s, 9, 10);
    assert s[9..10] == "Q";
    Glue(s, 7, 9);
    Glue(s, 6, 7);
    assert s[6..7] == "C";
    Glue(s, 4, 6);
    assert s == s[..4] + s[4..];
  }

  /** The fields a full frame carries. */
  datatype Frame = Frame(floor: nat, position: nat, qty: nat, color: nat, mode: PlcCommand, running: nat)

  /** Fields that fit their fixed widths: two digits, two, four and two. */
  predicate Encodable(f: Frame) {
    f.floor < 100 && f.position < 100 && f.qty < 10000 && f.color < 100
  }

  function Encode(f: Frame): string {
    CreatePlcCommand(f.floor, f.position, f.qty, f.mode, f.running, f.color)
  }

  /** The fields of a frame `createSimpleCommand` builds: only mode, colour and running number set. */
  function SimpleFrame(mode: PlcCommand, running: nat, color: nat := 0): Frame {
    Frame(0, 0, 0, color, mode, running)
  }

  /** Encoding those fields is exactly `createSimpleCommand`. */
  lemma SimpleFrameText(mode: PlcCommand, running: nat, color: nat)
    ensures Encode(SimpleFrame(mode, running, color)) == CreateSimpleCommand(mode, running, color)
  {
  }

  function FrameChecksum(f: Frame): string {
    CalculateChecksum(f.floor, f.position, f.qty, f.color, ModeValue(f.mode), 0, f.running, Device)
  }

  /** Reads each field at its fixed offset; rejects anything `Encode` cannot produce. */
  function Decode(s: string): Option<Frame> {
    if |s| < 33 then None
    else
      var t := |s| - 8;
      if && s[..4] == "B00R" && AllDigits(s[4..6]) && s[6] == 'C' && AllDigits(s[7..9])
         && s[9] == 'Q' && AllDigits(s[10..14]) && s[14] == 'L' && AllDigits(s[15..17])
         && CommandOfCode(s[17..20]).Some? && s[20..24] == "T00N" && Canonical(s[24..t])
         && s[t..t + 6] == "D4500S"
      then
        var f := Frame(Read(s[4..6]), Read(s[7..9]), Read(s[10..14]), Read(s[15..17]),
                       CommandOfCode(s[17..20]).value, Read(s[24..t]));
        if s[t + 6..] == FrameChecksum(f) then Some(f) else None
      else None
  }

  lemma FieldWidths(f: Frame)
    requires Encodable(f)
    ensures |Pad(f.floor, 2)| == 2 && |Pad(f.position, 2)| == 2
    ensures |Pad(f.qty, 4)| == 4 && |Pad(f.color, 2)| == 2
  {
    assert Pow10(2) == 100 && Pow10(4) == 10000;
    PadWidth(f.floor, 2);
    PadWidth(f.position, 2);
    PadWidth(f.qty, 4);
    PadWidth(f.color, 2);
  }

  /** Round trip: every field of an encodable frame reads back from its offset. */
  lemma DecodeEncode(f: Frame)
    requires Encodable(f)
    ensures Decode(Encode(f)) == Some(f)
  {
    FieldWidths(f);
    CodeLength(f.mode);
    ReadShow(f.running);
    TemplateFields(Pad(f.floor, 2), Pad(f.position, 2), Pad(f.qty, 4), Pad(f.color, 2), Code(f.mode),
                   Show(f.running), FrameChecksum(f));
  }

  /** Decoding accepts only encodings: a decoded text is exactly the encoding of its fields. */
  lemma EncodeDecode(s: string, f: Frame)
    requires Decode(s) == Some(f)
    ensures Encodable(f) && Encode(f) == s
  {
    var t := |s| - 8;
    PadRead(s[4..6]);
    PadRead(s[7..9]);
    PadRead(s[10..14]);
    PadRead(s[15..17]);
    ReadBound(s[4..6]);
    ReadBound(s[7..9]);
    ReadBound(s[10..14]);
    ReadBound(s[15..17]);
    assert Pow10(2) == 100 && Pow10(4) == 10000;
    ShowRead(s[24..t]);
    TemplateJoin(s);
  }
}

=== FILE: order_lifecycle.dfy ===
/**
 * The rules an order follows in the cabinet service: which status changes
 * are allowed, when a prescription counts as complete, how stock is taken
 * when an order completes, and which door and light commands an order's slot
 * selects.
 *
 * The database is an in-memory `Store`: orders keyed by their item id,
 * prescription statuses by prescription id, stock counts by drug id.
 */
module OrderLifecycle {
  import opened Wrappers
  import opened Decimal
  import opened PlcTypes
  import opened FrameCodec

  /** The statuses an order moves through. */
  const Statuses: set<string> := {"ready", "pending", "receive", "complete", "error"}

  /** `validStatusTransitions`: the status an order must hold before it may move to `target`. */
  function RequiredCurrent(target: string): (r: Option<string>)
    ensures r.Some? <==> target in Statuses
    ensures r.Some? ==> r.value in Statuses && r.value != target
  {
    if target == "pending" then Some("ready")
    else if target == "receive" then Some("pending")
    else if target == "complete" then Some("receive")
    else if target == "error" then Some("pending")
    else if target == "ready" then Some("pending")
    else None
  }

  /** Why a status change was refused (both are 400 errors). */
  datatype Rejection =
    | NotYetReceived                  // "still in progress and not yet in receive"
    | CannotChange(from: string, to: string)

  /**
   * The guard on a status change: allowed exactly when the order holds the
   * required status; otherwise the special in-progress message for an `error`
   * request on a `pending` order, or the generic one.
   */
  function CheckTransition(current: string, target: string): (r: Result<(), Rejection>)
    ensures r.Ok? <==> RequiredCurrent(target) == Some(current)
    ensures r.Err? && r.error.CannotChange? ==> r.error == CannotChange(current, target)
  {
    if RequiredCurrent(target) != Some(current) then
      if target == "error" && current == "pending" then Err(NotYetReceived)
      else Err(CannotChange(current, target))
    else Ok(())
  }

  /** The five accepted (current, target) pairs. */
  const LegalPairs: set<(string, string)> :=
    {("ready", "pending"), ("pending", "receive"), ("receive", "complete"), ("pending", "error"), ("pending", "ready")}

  /**
   * The transition table accepts exactly five of the twenty-five pairs of
   * statuses, and nothing whose target is not a status.
   */
  lemma LegalTransitions()
    ensures forall c, t :: CheckTransition(c, t).Ok? <==> (c, t) in LegalPairs
    ensures |LegalPairs| == 5
    ensures forall c, t :: (c, t) in LegalPairs ==> c in Statuses && t in Statuses
  {
  }

  /**
   * The in-progress rejection never happens: an `error` request on a `pending`
   * order is exactly a pair the table accepts.
   */
  lemma NotYetReceivedUnreachable(current: string, target: string)
    ensures CheckTransition(current, target) != Err(NotYetReceived)
    ensures target == "error" && current == "pending" ==> CheckTransition(current, target).Ok?
  {
  }

  /** A target outside the five statuses is refused, whatever the order's status. */
  lemma UnknownTargetRejected(current: string, target: string)
    requires target !in Statuses
    ensures CheckTransition(current, target) == Err(CannotChange(current, target))
  {
  }

  /** An order row: its id, prescription, item (drug) id, quantity, status, slot and the drug code of its drug record. */
  datatype Order = Order(
    id: string, prescriptionId: string, itemId: string, qty: int, status: string,
    slot: Option<string>, drugcode: Option<string>)

  /** The tables the service reads and writes. */
  datatype Store = Store(orders: map<string, Order>, prescriptions: map<string, string>, inventory: map<string, int>)

  /** The statuses that end an order. */
  predicate Settled(status: string) {
    status == "complete" || status == "error"
  }

  /** Every order of the prescription has ended (true of a prescription with no orders). */
  predicate AllSettled(orders: map<string, Order>, presId: string) {
    forall k :: k in orders && orders[k].prescriptionId == presId ==> Settled(orders[k].status)
  }

  /** The order stored under `key` with its status replaced; nothing else changes. */
  function SetStatus(orders: map<string, Order>, key: string, status: string): (r: map<string, Order>)
    requires key in orders
    ensures r.Keys == orders.Keys && r[key].status == status
    ensures r[key] == orders[key].(status := status)
    ensures forall k :: k in orders && k != key ==> r[k] == orders[k]
  {
    orders[key := orders[key].(status := status)]
  }

  /**
   * After a status change that is not to `error`, the prescription can only
   * have become fully settled if the change was to `complete`.
   */
  lemma OnlyCompleteSettles(orders: map<string, Order>, key: string, target: string)
    requires key in orders && target != "error"
    ensures AllSettled(SetStatus(orders, key, target), orders[key].prescriptionId) ==> target == "complete"
  {
    var after := SetStatus(orders, key, target);
    assert after[key].prescriptionId == orders[key].prescriptionId;
  }

  /**
   * Settling one more order settles its prescription exactly when every
   * other order of that prescription had already ended.
   */
  lemma SettlingLastOrder(orders: map<string, Order>, key: string, target: string)
    requires key in orders && Settled(target)
    ensures var p := orders[key].prescriptionId;
            AllSettled(SetStatus(orders, key, target), p) <==>
            forall k :: k in orders && k != key && orders[k].prescriptionId == p ==> Settled(orders[k].status)
  {
    var p := orders[key].prescriptionId;
    var after := SetStatus(orders, key, target);
    if forall k :: k in orders && k != key && orders[k].prescriptionId == p ==> Settled(orders[k].status) {
      forall k | k in after && after[k].prescriptionId == p ensures Settled(after[k].status) {
        if k != key {
          assert after[k] == orders[k];
        }
      }
    }
  }

  /** Why taking stock failed: no stock record for the drug (404), or too little left (400). */
  datatype StockError = NoStock(drug: string) | Short(remaining: int, wanted: int)

  /**
   * The stock guard of the complete flow: the drug's stock must exist and
   * cover the order's quantity; the quantity is then taken off that record.
   */
  function TakeStock(inventory: map<string, int>, drug: string, qty: int): (r: Result<map<string, int>, StockError>)
    ensures r.Ok? <==> drug in inventory && inventory[drug] >= qty
    ensures r.Ok? ==> r.value.Keys == inventory.Keys
    ensures r.Ok? ==> r.value[drug] == inventory[drug] - qty && r.value[drug] >= 0
    ensures r.Ok? ==> forall d :: d in inventory && d != drug ==> r.value[d] == inventory[d]
    ensures drug !in inventory ==> r == Err(NoStock(drug))
    ensures drug in inventory && inventory[drug] < qty ==> r == Err(Short(inventory[drug], qty))
  {
    if drug !in inventory then Err(NoStock(drug))
    else if inventory[drug] < qty then Err(Short(inventory[drug], qty))
    else Ok(inventory[drug := inventory[drug] - qty])
  }

  /** Taking stock twice takes the sum, and fails unless the record covers both. */
  lemma TakeStockTwice(inventory: map<string, int>, drug: string, a: int, b: int)
    requires 0 <= a && 0 <= b
    requires TakeStock(inventory, drug, a).Ok?
    ensures TakeStock(TakeStock(inventory, drug, a).value, drug, b).Ok? <==> TakeStock(inventory, drug, a + b).Ok?
    ensures TakeStock(TakeStock(inventory, drug, a).value, drug, b).Ok? ==>
              TakeStock(TakeStock(inventory, drug, a).value, drug, b).value == TakeStock(inventory, drug, a + b).value
  {
  }

  /**
   * The unlock and lights-off commands for a slot: `M01` is the right side,
   * any other slot the left. The unlock mode is 34 for `M01` and 35
   * otherwise, and the lights-off mode is always the same side's, two above.
   */
  function SlotCommands(slot: string): (r: (PlcCommand, PlcCommand))
    ensures ModeValue(r.0) == (if slot == "M01" then 34 else 35)
    ensures ModeValue(r.1) == ModeValue(r.0) + 2
  {
    DoorModes();
    if slot == "M01" then (UnlockRight, OffRight) else (UnlockLeft, OffLeft)
  }

  /**
   * The unlock and lights-off frames as the complete flow writes them, by
   * hand with literal modes and mode numbers (34 and 36, or 35 and 37): each
   * is `createSimpleCommand` of the slot's command at colour 0, with the same
   * running number.
   */
  function SlotTexts(slot: string, running: nat): (r: (string, string))
    ensures r.0 == CreateSimpleCommand(SlotCommands(slot).0, running)
    ensures r.1 == CreateSimpleCommand(SlotCommands(slot).1, running)
  {
    ModeValues();
    if slot == "M01" then
      InlineCheckFrame(UnlockRight, running);
      InlineCheckFrame(OffRight, running);
      (InlineFrame("M34", 34, running), InlineFrame("M36", 36, running))
    else
      InlineCheckFrame(UnlockLeft, running);
      InlineCheckFrame(OffLeft, running);
      (InlineFrame("M35", 35, running), InlineFrame("M37", 37, running))
  }

  /** The slot's two frames as records: zero fields, colour 0, one running number. */
  function SlotFrames(slot: string, running: nat): (r: (Frame, Frame))
    ensures r.0.mode in {UnlockRight, UnlockLeft} && r.1.mode in {OffRight, OffLeft}
    ensures (r.0.mode == UnlockRight) == (slot == "M01") && (r.1.mode == OffRight) == (slot == "M01")
    ensures r.0.running == running && r.1.running == running && r.0.color == 0 && r.1.color == 0
  {
    var (unlock, off) := SlotCommands(slot);
    (SimpleFrame(unlock, running), SimpleFrame(off, running))
  }

  /** The records encode to the texts the flow writes. */
  lemma SlotFramesText(slot: string, running: nat)
    ensures Encode(SlotFrames(slot, running).0) == SlotTexts(slot, running).0
    ensures Encode(SlotFrames(slot, running).1) == SlotTexts(slot, running).1
  {
    var (unlock, off) := SlotCommands(slot);
    SimpleFrameText(unlock, running, 0);
    SimpleFrameText(off, running, 0);
  }

  /** The two sides never share a frame: the right slot's frames differ from the left's. */
  lemma SlotSidesDiffer(running: nat, other: string)
    requires other != "M01"
    ensures SlotTexts("M01", running).0 != SlotTexts(other, running).0
    ensures SlotTexts("M01", running).1 != SlotTexts(other, running).1
  {
    DecodeEncode(SimpleFrame(UnlockRight, running));
    DecodeEncode(SimpleFrame(UnlockLeft, running));
    DecodeEncode(SimpleFrame(OffRight, running));
    DecodeEncode(SimpleFrame(OffLeft, running));
  }
}

=== FILE: order_service.dfy ===
/**
 * `updateStatusOrderServicePending` and `received` assembled from their
 * parts: the guards, the status write, the prescription completion, and the
 * cabinet work of the complete and receive flows.
 *
 * The database is the `Store` of the order rules; the machine table and the
 * open sockets are the `Registry` of the PLC handlers; everything the
 * cabinet and the message broker answer is gathered in a `Cabinet`.
 */
module OrderService {
  import opened Wrappers
  import opened PlcTypes
  import opened FrameCodec
  import opened StatusCodes
  import opened OrderLifecycle
  import opened Confirmation
  import PlcService

  /** Why a request failed. */
  datatype Why =
    | MachineMissing                 // "Machine not found"
    | OrderMissing                   // the order (or, in `received`, the item) is not there
    | Refused(rejection: Rejection)  // the transition table said no
    | StockProblem(err: StockError)  // no stock record, or too little stock
    | UnlockTimeout                  // the unlock frame got no reply within 5 s
    | LookupThrew                    // a running-number lookup threw
    | NoRecordToUpdate               // a Prisma `update` matched no row
    | NotReceivable                  // "This item is not in a ready to receive drug"

  /** An `HttpError` with its status code, or a plain error that carries none. */
  datatype Failure = Http(code: nat, why: Why) | Thrown(why: Why)

  /** What a successful call returns: nothing (the `error` transition), the prescription lookup, or an order record. */
  datatype Answer = NoContent | FoundPrescription(id: Option<string>) | OrderRecord(order: Order)

  /** A call answers, fails, or never settles because a status check still waits for its reply. */
  datatype Response = Responds(answer: Answer) | Fails(failure: Failure) | NeverResponds

  /** The tables after the call, what it did to the outside world, and its response. */
  datatype Update = Update(store: Store, events: seq<Event>, response: Response)

  /** The inputs the cabinet and the broker supply during one call. */
  datatype Cabinet = Cabinet(
    running: Option<nat>,         // the running number read before the stock step; None when the lookup threw
    unlockReply: Option<string>,  // the reply to the unlock frame; None when none came within 5 s
    probes: seq<Probe>,           // the status checks of the confirmation loop, in order
    budget: nat,                  // the rounds that finish before the deadline passes
    queued: bool)                 // the `orders` queue holds a message

  /** Every order is stored under its own item id. */
  predicate WellKeyed(store: Store) {
    forall k :: k in store.orders ==> store.orders[k].itemId == k
  }

  /** `w` occurs in `s` (`contains`). */
  predicate Contains(s: string, w: string)
    decreases |s|
  {
    (|w| <= |s| && s[..|w|] == w) || (|s| > 0 && Contains(s[1..], w))
  }

  /**
   * The prescription lookup the status update returns: the prescription
   * `presId` when it exists and every one of its orders has a status
   * containing `complete`; absent (null) otherwise.
   */
  function Lookup(store: Store, presId: string): (r: Option<string>)
    ensures r.Some? <==> presId in store.prescriptions && AllComplete(store.orders, presId)
    ensures r.Some? ==> r.value == presId
  {
    if presId in store.prescriptions && AllComplete(store.orders, presId) then Some(presId) else None
  }

  /** Every order of the prescription has a status containing `complete`. */
  predicate AllComplete(orders: map<string, Order>, presId: string) {
    forall k :: k in orders && orders[k].prescriptionId == presId ==> Contains(orders[k].status, "complete")
  }

  /** Every order holds one of the five statuses. */
  predicate KnownStatuses(orders: map<string, Order>) {
    forall k :: k in orders ==> orders[k].status in Statuses
  }

  /** A text never contains a longer word. */
  lemma {:induction false} TooShortToContain(s: string, w: string)
    requires |s| < |w|
    ensures !Contains(s, w)
    decreases |s|
  {
    if |s| > 0 {
      TooShortToContain(s[1..], w);
    }
  }

  /** Among the five statuses, only `complete` is as long as the word `complete`. */
  lemma ShortOrComplete(status: string)
    requires status in Statuses
    ensures status == "complete" || |status| < |"complete"|
  {
  }

  /** A text no longer than a word contains it exactly when it is the word. */
  lemma ContainsWord(s: string, w: string)
    requires |s| <= |w|
    ensures Contains(s, w) <==> s == w
  {
    if s == w {
      assert s[..|w|] == w;
    } else if |s| < |w| {
      TooShortToContain(s, w);
    } else {
      assert !(|s| > 0 && Contains(s[1..], w)) by {
        if |s| > 0 { TooShortToContain(s[1..], w); }
      }
    }
  }

  /**
   * When every order holds one of the five statuses, the lookup after the
   * completion step finds the prescription exactly when all of its orders
   * are `complete`, and the prescription it finds has been marked `complete`.
   */
  lemma LookupAfterSettle(store: Store, presId: string)
    requires presId in store.prescriptions && KnownStatuses(store.orders)
    ensures var settled := Settle(store, presId);
      Lookup(settled, presId).Some? <==>
        forall k :: k in store.orders && store.orders[k].prescriptionId == presId ==> store.orders[k].status == "complete"
    ensures var settled := Settle(store, presId);
      Lookup(settled, presId).Some? ==> settled.prescriptions[presId] == "complete"
  {
    forall k | k in store.orders && store.orders[k].prescriptionId == presId
      ensures Contains(store.orders[k].status, "complete") <==> store.orders[k].status == "complete"
    {
      ShortOrComplete(store.orders[k].status);
      ContainsWord(store.orders[k].status, "complete");
    }
  }

  /** Whether the stock guard applies: the drug record has a drug code and the order a positive quantity. */
  predicate TakesStock(order: Order) {
    order.drugcode.Some? && order.drugcode.value != "" && order.qty > 0
  }

  /** The status code of a stock failure: 404 without a record, 400 when short. */
  function StockCode(e: StockError): nat {
    if e.NoStock? then 404 else 400
  }

  /**
   * The complete flow on a connected cabinet: the running-number lookup
   * (whose failure is rethrown), the stock guard, then for an order with a
   * slot the unlock frame, and when its reply reports 39 the confirmation
   * loop, whose lights-off frame is the slot's.
   */
  function CompleteFlow(store: Store, id: string, result: Option<string>, cab: Cabinet): (r: Update)
    requires id in store.orders
    ensures r.store.orders == store.orders && r.store.prescriptions == store.prescriptions
    ensures r.response.Fails? && r.response.failure.why.StockProblem? ==> r.store == store && r.events == []
  {
    var order := store.orders[id];
    match cab.running
    case None => Update(store, [], Fails(Thrown(LookupThrew)))
    case Some(running) =>
      var stock := if TakesStock(order) then TakeStock(store.inventory, order.drugcode.value, order.qty) else Ok(store.inventory);
      match stock
      case Err(e) => Update(store, [], Fails(Http(StockCode(e), StockProblem(e))))
      case Ok(inventory) => UnlockFlow(store.(inventory := inventory), order.slot, running, result, cab)
  }

  /**
   * The cabinet part of the complete flow, after the stock step: for an order
   * with a slot, the unlock frame, and when its reply reports 39 the
   * confirmation loop. It changes no table.
   */
  function UnlockFlow(store: Store, slot: Option<string>, running: nat, result: Option<string>, cab: Cabinet): (r: Update)
    ensures r.store == store
    ensures slot.None? || slot.value == "" ==> r.events == []
    ensures r.response.Fails? ==> r.response.failure == Thrown(UnlockTimeout) || r.response.failure == Thrown(LookupThrew)
  {
    if slot.None? || slot.value == "" then Update(store, [], Responds(FoundPrescription(result)))
    else
      var (unlock, lightsOff) := SlotFrames(slot.value, running);
      match cab.unlockReply
      case None => Update(store, [Wrote(unlock)], Fails(Thrown(UnlockTimeout)))
      case Some(raw) =>
        if StatusField(raw) != Some("39") then Update(store, [Wrote(unlock)], Responds(FoundPrescription(result)))
        else
          var poll := CompletePoll(cab.probes, cab.budget, lightsOff, cab.queued, result);
          var response := match poll.end
            case Failed => Fails(Thrown(LookupThrew))
            case Stalled => NeverResponds
            case _ => Responds(FoundPrescription(result));
          Update(store, [Wrote(unlock)] + poll.events, response)
  }

  /** The prescription marked `complete` once every one of its orders has ended. */
  function Settle(store: Store, presId: string): (r: Store)
    requires AllSettled(store.orders, presId) ==> presId in store.prescriptions
    ensures r.orders == store.orders && r.inventory == store.inventory && r.prescriptions.Keys == store.prescriptions.Keys
  {
    if AllSettled(store.orders, presId) then store.(prescriptions := store.prescriptions[presId := "complete"]) else store
  }

  /**
   * `updateStatusOrderServicePending`: the machine and order lookups, the
   * transition guard, the status write, the prescription completion, then
   * the cabinet work of the target status when the machine is connected.
   */
  function UpdateStatusOrderServicePending(
    id: string, target: string, presId: string, machineId: string,
    reg: PlcService.Registry, store: Store, cab: Cabinet
  ): (r: Update)
    ensures r.store.orders.Keys == store.orders.Keys && r.store.prescriptions.Keys == store.prescriptions.Keys
  {
    if machineId !in reg.machines then Update(store, [], Fails(Http(404, MachineMissing)))
    else
      var socket := reg.machines[machineId] in reg.connected;
      if id !in store.orders || store.orders[id].prescriptionId != presId then Update(store, [], Fails(Http(404, OrderMissing)))
      else
        match CheckTransition(store.orders[id].status, target)
        case Err(rejection) => Update(store, [], Fails(Http(400, Refused(rejection))))
        case Ok(_) =>
          var written := store.(orders := SetStatus(store.orders, id, target));
          if target == "error" then Update(written, [], Responds(NoContent))
          else if AllSettled(written.orders, presId) && presId !in store.prescriptions then
            Update(written, [], Fails(Thrown(NoRecordToUpdate)))
          else
            var settled := Settle(written, presId);
            var result := Lookup(settled, presId);
            if socket && target == "complete" then
              CompleteFlow(settled, id, result, cab)
            else if socket && target == "receive" then
              var run := ReceiveFlow(cab.probes, cab.budget, result);
              Update(settled, run.events, if run.end == Some(Stalled) then NeverResponds else Responds(FoundPrescription(result)))
            else Update(settled, [], Responds(FoundPrescription(result)))
  }

  /**
   * The guards change nothing: an unknown machine or order is a 404 and a
   * refused transition a 400, with no write and nothing sent; a transition
   * the table refuses is refused with the table's own rejection.
   */
  lemma GuardsChangeNothing(
    id: string, target: string, presId: string, machineId: string,
    reg: PlcService.Registry, store: Store, cab: Cabinet)
    ensures var r := UpdateStatusOrderServicePending(id, target, presId, machineId, reg, store, cab);
      && (machineId !in reg.machines ==> r == Update(store, [], Fails(Http(404, MachineMissing))))
      && (machineId in reg.machines && (id !in store.orders || store.orders[id].prescriptionId != presId) ==>
            r == Update(store, [], Fails(Http(404, OrderMissing))))
      && (machineId in reg.machines && id in store.orders && store.orders[id].prescriptionId == presId
          && CheckTransition(store.orders[id].status, target).Err? ==>
            r == Update(store, [], Fails(Http(400, Refused(CheckTransition(store.orders[id].status, target).error)))))
  {
  }

  /**
   * An accepted `error` transition writes that order's status and nothing
   * else: no prescription recompute, no stock change, no cabinet traffic.
   */
  lemma ErrorTransitionOnlyWritesStatus(
    id: string, presId: string, machineId: string, reg: PlcService.Registry, store: Store, cab: Cabinet)
    requires machineId in reg.machines && id in store.orders && store.orders[id].prescriptionId == presId
    requires store.orders[id].status == "pending"
    ensures var r := UpdateStatusOrderServicePending(id, "error", presId, machineId, reg, store, cab);
      && r.response == Responds(NoContent) && r.events == []
      && r.store == store.(orders := SetStatus(store.orders, id, "error"))
  {
    assert CheckTransition("pending", "error").Ok?;
  }

  /** A status update that gets past the guards, to a target other than `error`. */
  predicate Accepted(id: string, target: string, presId: string, machineId: string, reg: PlcService.Registry, store: Store) {
    && machineId in reg.machines && id in store.orders && store.orders[id].prescriptionId == presId
    && CheckTransition(store.orders[id].status, target).Ok? && target != "error"
  }

  /**
   * After an accepted transition other than `error`, the prescription is set
   * to `complete` exactly when every one of its orders has ended; otherwise
   * no prescription changes. Only a transition to `complete` can do it.
   */
  lemma PrescriptionCompletion(
    id: string, target: string, presId: string, machineId: string,
    reg: PlcService.Registry, store: Store, cab: Cabinet)
    requires Accepted(id, target, presId, machineId, reg, store) && presId in store.prescriptions
    ensures var r := UpdateStatusOrderServicePending(id, target, presId, machineId, reg, store, cab);
      var settles := AllSettled(SetStatus(store.orders, id, target), presId);
      && (settles ==> r.store.prescriptions == store.prescriptions[presId := "complete"])
      && (!settles ==> r.store.prescriptions == store.prescriptions)
      && (settles ==> target == "complete")
  {
    OnlyCompleteSettles(store.orders, id, target);
  }

  /**
   * The stock of a completed order on a connected cabinet. When the
   * running-number lookup throws, the call fails with the status already
   * written and the stock untouched. Otherwise, when the guard applies,
   * exactly the order's quantity is taken off its drug's record and no record
   * goes below zero, a missing record is a 404 and too little stock a 400
   * that leave the stock as it was; without the guard the stock is untouched.
   */
  lemma CompleteTakesStock(
    id: string, presId: string, machineId: string, reg: PlcService.Registry, store: Store, cab: Cabinet)
    requires Accepted(id, "complete", presId, machineId, reg, store) && presId in store.prescriptions
    requires reg.machines[machineId] in reg.connected
    ensures var r := UpdateStatusOrderServicePending(id, "complete", presId, machineId, reg, store, cab);
      cab.running.None? ==>
        && r.store.inventory == store.inventory && r.events == []
        && r.store.orders == SetStatus(store.orders, id, "complete")
        && r.response == Fails(Thrown(LookupThrew))
    ensures var r := UpdateStatusOrderServicePending(id, "complete", presId, machineId, reg, store, cab);
      var order := store.orders[id];
      && (cab.running.Some? && TakesStock(order) && TakeStock(store.inventory, order.drugcode.value, order.qty).Ok? ==>
            r.store.inventory == TakeStock(store.inventory, order.drugcode.value, order.qty).value
            && r.store.inventory[order.drugcode.value] >= 0)
      && (cab.running.Some? && TakesStock(order) && TakeStock(store.inventory, order.drugcode.value, order.qty).Err? ==>
            r.store.inventory == store.inventory
            && r.response == Fails(Http(StockCode(TakeStock(store.inventory, order.drugcode.value, order.qty).error),
                                        StockProblem(TakeStock(store.inventory, order.drugcode.value, order.qty).error))))
      && (!TakesStock(order) ==> r.store.inventory == store.inventory)
  {
    var written := store.(orders := SetStatus(store.orders, id, "complete"));
    var settled := Settle(written, presId);
    CompleteReduces(id, presId, machineId, reg, store, cab);
    assert settled.orders[id].drugcode == store.orders[id].drugcode && settled.orders[id].qty == store.orders[id].qty;
    CompleteFlowStock(settled, id, Lookup(settled, presId), cab);
  }

  /** The running-number lookup and the stock step of the complete flow, on any tables. */
  lemma CompleteFlowStock(store: Store, id: string, result: Option<string>, cab: Cabinet)
    requires id in store.orders
    ensures cab.running.None? ==> CompleteFlow(store, id, result, cab) == Update(store, [], Fails(Thrown(LookupThrew)))
    ensures var r := CompleteFlow(store, id, result, cab);
      var order := store.orders[id];
      && (cab.running.Some? && TakesStock(order) && TakeStock(store.inventory, order.drugcode.value, order.qty).Ok? ==>
            r.store.inventory == TakeStock(store.inventory, order.drugcode.value, order.qty).value)
      && (cab.running.Some? && TakesStock(order) && TakeStock(store.inventory, order.drugcode.value, order.qty).Err? ==>
            r == Update(store, [], Fails(Http(StockCode(TakeStock(store.inventory, order.drugcode.value, order.qty).error),
                                              StockProblem(TakeStock(store.inventory, order.drugcode.value, order.qty).error)))))
      && (!TakesStock(order) ==> r.store.inventory == store.inventory)
  {
  }

  /** On a connected cabinet an accepted `complete` goes on to the complete flow, on the written and settled tables. */
  lemma CompleteReduces(
    id: string, presId: string, machineId: string, reg: PlcService.Registry, store: Store, cab: Cabinet)
    requires Accepted(id, "complete", presId, machineId, reg, store) && presId in store.prescriptions
    requires reg.machines[machineId] in reg.connected
    ensures var settled := Settle(store.(orders := SetStatus(store.orders, id, "complete")), presId);
            UpdateStatusOrderServicePending(id, "complete", presId, machineId, reg, store, cab)
              == CompleteFlow(settled, id, Lookup(settled, presId), cab)
  {
  }

  /**
   * On a connected cabinet an accepted `receive` leaves the stock alone and
   * never fails because of the cabinet: a failed status lookup is swallowed,
   * and the queue message is acknowledged at most once.
   */
  lemma ReceiveTransition(
    id: string, presId: string, machineId: string, reg: PlcService.Registry, store: Store, cab: Cabinet)
    requires Accepted(id, "receive", presId, machineId, reg, store)
    requires reg.machines[machineId] in reg.connected
    ensures var r := UpdateStatusOrderServicePending(id, "receive", presId, machineId, reg, store, cab);
      && r.store.inventory == store.inventory && r.store.orders == SetStatus(store.orders, id, "receive")
      && !r.response.Fails? && Acks(r.events) <= 1
  {
    OnlyCompleteSettles(store.orders, id, "receive");
    var written := store.(orders := SetStatus(store.orders, id, "receive"));
    var settled := Settle(written, presId);
    var run := ReceiveFlow(cab.probes, cab.budget, Lookup(settled, presId));
    if run.side.Some? {
      var p := cab.probes;
      var w := CheckWrite(CheckTray, p[0]);
      var poll := ReceiveDoorPoll(run.side.value, p[1..], cab.budget, Lookup(settled, presId));
      ReceiveEffects(run.side.value, p[1..], cab.budget, Lookup(settled, presId));
      CountsAppend(w, poll.events, SimpleFrame(CheckTray, 0));
      assert Acks(w) == 0;
    }
  }

  /** Without a connection to the cabinet the complete transition takes no stock and sends nothing. */
  lemma NoSocketNoStock(
    id: string, presId: string, machineId: string, reg: PlcService.Registry, store: Store, cab: Cabinet)
    requires Accepted(id, "complete", presId, machineId, reg, store)
    requires reg.machines[machineId] !in reg.connected
    ensures var r := UpdateStatusOrderServicePending(id, "complete", presId, machineId, reg, store, cab);
            r.store.inventory == store.inventory && r.events == []
  {
  }

  /**
   * The complete flow of an order with a slot writes the slot's unlock frame
   * first; a confirmation writes the slot's lights-off frame once and
   * acknowledges at most once, only with a message queued. When the
   * running-number lookup throws, nothing is sent.
   */
  lemma CompleteFlowFrames(store: Store, id: string, result: Option<string>, cab: Cabinet)
    requires id in store.orders
    requires store.orders[id].slot.Some? && store.orders[id].slot.value != ""
    requires !TakesStock(store.orders[id]) || TakeStock(store.inventory, store.orders[id].drugcode.value, store.orders[id].qty).Ok?
    ensures var r := CompleteFlow(store, id, result, cab);
      cab.running.None? ==> r.events == [] && r.response == Fails(Thrown(LookupThrew))
    ensures var r := CompleteFlow(store, id, result, cab);
      cab.running.Some? ==>
        var frames := SlotFrames(store.orders[id].slot.value, cab.running.value);
        && |r.events| >= 1 && r.events[0] == Wrote(frames.0)
        && Writes(r.events, frames.1) <= 1 && Acks(r.events) <= (if cab.queued then 1 else 0)
  {
    if cab.running.None? {
      return;
    }
    var order := store.orders[id];
    var inventory := if TakesStock(order) then TakeStock(store.inventory, order.drugcode.value, order.qty).value else store.inventory;
    assert CompleteFlow(store, id, result, cab) == UnlockFlow(store.(inventory := inventory), order.slot, cab.running.value, result, cab);
    UnlockFlowFrames(store.(inventory := inventory), order.slot.value, cab.running.value, result, cab);
  }

  /** The frames and acknowledgements of the cabinet part of the complete flow, for an order with a slot. */
  lemma UnlockFlowFrames(store: Store, slot: string, running: nat, result: Option<string>, cab: Cabinet)
    requires slot != ""
    ensures var r := UnlockFlow(store, Some(slot), running, result, cab);
      && |r.events| >= 1 && r.events[0] == Wrote(SlotFrames(slot, running).0)
      && Writes(r.events, SlotFrames(slot, running).1) <= 1 && Acks(r.events) <= (if cab.queued then 1 else 0)
  {
    var unlock := SlotFrames(slot, running).0;
    var lightsOff := SlotFrames(slot, running).1;
    var r := UnlockFlow(store, Some(slot), running, result, cab);
    assert Writes([Wrote(unlock)], lightsOff) == 0 && Acks([Wrote(unlock)]) == 0 by {
      assert [Wrote(unlock)][1..] == [];
    }
    if cab.unlockReply.None? || StatusField(cab.unlockReply.value) != Some("39") {
      assert r.events == [Wrote(unlock)];
    } else {
      var poll := CompletePoll(cab.probes, cab.budget, lightsOff, cab.queued, result);
      assert r.events == [Wrote(unlock)] + poll.events;
      CompleteEffects(cab.probes, cab.budget, lightsOff, cab.queued, result);
      CountsAppend([Wrote(unlock)], poll.events, lightsOff);
    }
  }



  // ---------------------------------------------------------------------------
  // `received`

  /** `findOrders(['complete', 'error'])` is empty: no order anywhere has ended. */
  predicate NoneEnded(orders: map<string, Order>) {
    forall k :: k in orders ==> !Settled(orders[k].status)
  }

  /**
   * `received` as written: the order is found by its item id, but the status
   * write is keyed by the order's own id (`updateOrder(result.id, ...)`
   * matches `OrderItemId`), the prescription is completed only when no order
   * anywhere has ended, and the loop waits for door status 30.
   */
  function ReceivedAsWritten(drugId: string, store: Store, connected: seq<string>, probes: seq<Probe>, budget: nat): (r: Update)
    ensures r.store.inventory == store.inventory
  {
    if drugId !in store.orders then Update(store, [], Fails(Thrown(OrderMissing)))
    else
      var result := store.orders[drugId];
      if result.status != "receive" && result.status != "error" then Update(store, [], Fails(Thrown(NotReceivable)))
      else if result.id !in store.orders then Update(store, [], Fails(Thrown(NoRecordToUpdate)))
      else
        var written := store.(orders := SetStatus(store.orders, result.id, "complete"));
        if NoneEnded(written.orders) && result.prescriptionId !in store.prescriptions then
          Update(written, [], Fails(Thrown(NoRecordToUpdate)))
        else
          var settled :=
            if NoneEnded(written.orders) then written.(prescriptions := written.prescriptions[result.prescriptionId := "complete"])
            else written;
          ReceivedLoop(settled, result, |connected| > 0, probes, budget)
  }

  /** The tail of `received`: the door loop on the first socket, if there is one, then the order record found. */
  function ReceivedLoop(store: Store, result: Order, socket: bool, probes: seq<Probe>, budget: nat): (r: Update)
    ensures r.store == store
    ensures !socket ==> r == Update(store, [], Responds(OrderRecord(result)))
  {
    if !socket then Update(store, [], Responds(OrderRecord(result)))
    else
      var poll := ReceivedPoll(probes, budget, Some(result.id));
      var response := match poll.end
        case Failed => Fails(Thrown(LookupThrew))
        case Stalled => NeverResponds
        case _ => Responds(OrderRecord(result));
      Update(store, poll.events, response)
  }

  /**
   * The wrong key in action: an order stored under item `D1` with id `ORD-1`,
   * waiting in `receive`, cannot be received: the write looks for item
   * `ORD-1`, finds none and throws, and the order stays in `receive`.
   */
  lemma ReceivedWrongKey()
    ensures var o := Order("ORD-1", "P1", "D1", 1, "receive", None, None);
            var store := Store(map["D1" := o], map["P1" := "ready"], map[]);
            ReceivedAsWritten("D1", store, [], [], 0) == Update(store, [], Fails(Thrown(NoRecordToUpdate)))
  {
  }

  /**
   * In general, `received` as written throws unless some order's item id
   * equals the found order's own id, and then it completes that other order.
   */
  lemma ReceivedWritesOtherOrder(drugId: string, store: Store, connected: seq<string>, probes: seq<Probe>, budget: nat)
    requires drugId in store.orders
    requires store.orders[drugId].status == "receive" || store.orders[drugId].status == "error"
    ensures var r := ReceivedAsWritten(drugId, store, connected, probes, budget);
            var oid := store.orders[drugId].id;
      && (oid !in store.orders ==> r == Update(store, [], Fails(Thrown(NoRecordToUpdate))))
      && (oid in store.orders ==> r.store.orders == SetStatus(store.orders, oid, "complete"))
  {
  }

  /**
   * The prescription step of `received` as written never fires: once the
   * write succeeds the written order has ended, so the list of ended orders
   * is never empty, and no prescription ever changes.
   */
  lemma ReceivedNeverCompletesPrescription(drugId: string, store: Store, connected: seq<string>, probes: seq<Probe>, budget: nat)
    ensures ReceivedAsWritten(drugId, store, connected, probes, budget).store.prescriptions == store.prescriptions
  {
    if drugId in store.orders && store.orders[drugId].id in store.orders {
      var oid := store.orders[drugId].id;
      var written := SetStatus(store.orders, oid, "complete");
      assert Settled(written[oid].status);
      assert !NoneEnded(written);
    }
  }

  /**
   * `received` as intended: the status write is keyed by the item id it was
   * looked up by, and the prescription is completed once every one of its
   * orders has ended, as the status update does.
   */
  function Received(drugId: string, store: Store, connected: seq<string>, probes: seq<Probe>, budget: nat): (r: Update)
    ensures r.store.inventory == store.inventory
  {
    if drugId !in store.orders then Update(store, [], Fails(Thrown(OrderMissing)))
    else
      var result := store.orders[drugId];
      if result.status != "receive" && result.status != "error" then Update(store, [], Fails(Thrown(NotReceivable)))
      else
        var written := store.(orders := SetStatus(store.orders, drugId, "complete"));
        if AllSettled(written.orders, result.prescriptionId) && result.prescriptionId !in store.prescriptions then
          Update(written, [], Fails(Thrown(NoRecordToUpdate)))
        else
          var settled :=
            if AllSettled(written.orders, result.prescriptionId)
            then written.(prescriptions := written.prescriptions[result.prescriptionId := "complete"])
            else written;
          ReceivedLoop(settled, result, |connected| > 0, probes, budget)
  }

  /**
   * The intended `received` completes the order it found, and completes its
   * prescription exactly when every other order of that prescription had
   * already ended.
   */
  lemma ReceivedCompletes(drugId: string, store: Store, connected: seq<string>, probes: seq<Probe>, budget: nat)
    requires drugId in store.orders && store.orders[drugId].prescriptionId in store.prescriptions
    requires store.orders[drugId].status == "receive" || store.orders[drugId].status == "error"
    ensures var r := Received(drugId, store, connected, probes, budget);
            var p := store.orders[drugId].prescriptionId;
            var othersEnded := forall k :: k in store.orders && k != drugId && store.orders[k].prescriptionId == p ==> Settled(store.orders[k].status);
      && r.store.orders == SetStatus(store.orders, drugId, "complete")
      && (othersEnded ==> r.store.prescriptions == store.prescriptions[p := "complete"])
      && (!othersEnded ==> r.store.prescriptions == store.prescriptions)
  {
    SettlingLastOrder(store.orders, drugId, "complete");
  }

  /** Both versions acknowledge the queue message at most once, whether the door locks or the deadline passes. */
  lemma ReceivedAcksOnce(drugId: string, store: Store, connected: seq<string>, probes: seq<Probe>, budget: nat)
    ensures Acks(ReceivedAsWritten(drugId, store, connected, probes, budget).events) <= 1
    ensures Acks(Received(drugId, store, connected, probes, budget).events) <= 1
  {
    if drugId in store.orders {
      ReceivedEffects(probes, budget, Some(store.orders[drugId].id));
    }
  }
}

=== FILE: plc_service.dfy ===
/**
 * The request handlers that talk to a cabinet directly: `sendCommand`,
 * `sendCommandM` and `sendCommandFromQueue`. Each validates its payload,
 * finds the machine and its connection, then either runs the check sequence
 * or sends one command, and turns every failure into an HTTP error.
 *
 * The machine table and the list of connected sockets form a `Registry`; the
 * running-number lookup, the unseen `checkMachineStatus` helper and the reply
 * to a written frame are supplied as inputs.
 */
module PlcService {
  import opened Wrappers
  import opened PlcTypes
  import opened FrameCodec
  import opened StatusCodes
  import opened CheckSequence

  /** The request body; absent members are `None`. */
  datatype Body = Body(
    command: Option<string>, floor: Option<nat>, position: Option<nat>, qty: Option<nat>, id: Option<string>)

  /** Machines by id, with their IP address, and the remote addresses of the open sockets, in order. */
  datatype Registry = Registry(machines: map<string, string>, connected: seq<string>)

  /** What a failure inside a handler's `try` block was: a `PLCStatusError` or any other error. */
  datatype Cause = Status(err: StatusError) | Failure(message: string)

  /** Why a handler rejected, each with the message it carries. */
  datatype Reason =
    | MissingPayload        // "Missing payload values"
    | MachineNotFound       // "Machine not found"
    | NotConnected          // no connection to the PLC
    | BadCommand        // "Invalid command"
    | MissingModuleParams   // "Missing params for ShowModules (m32)"
    | NoResponse            // the PLC did not answer within 5 s
    | Rethrown(cause: Cause)  // the message of the error caught

  datatype HttpError = HttpError(code: nat, reason: Reason)

  /** A handler's success value. */
  datatype Reply =
    | Dispensed(floor: nat, position: nat, plcResponse: string)  // "dispensing done"
    | Sent(command: string, plcResponse: string)                  // "Command ... sent successfully!"

  /** The frames a handler wrote and how it ended. */
  datatype Outcome = Outcome(sent: seq<Frame>, result: Result<Reply, HttpError>)

  /** A JavaScript-truthy number or string: present and not 0 or empty. */
  predicate Truthy(n: Option<nat>) {
    n.Some? && n.value != 0
  }

  predicate Filled(s: Option<string>) {
    s.Some? && s.value != ""
  }

  /** `getConnectedSockets().find(s => s.remoteAddress === ip)`: the first socket at `ip`. */
  function FindSocket(connected: seq<string>, ip: string): (r: Option<nat>)
    ensures r.Some? ==> r.value < |connected| && connected[r.value] == ip
    ensures r.Some? ==> forall j :: 0 <= j < r.value ==> connected[j] != ip
    ensures r.None? <==> ip !in connected
  {
    if |connected| == 0 then None
    else if connected[0] == ip then Some(0)
    else match FindSocket(connected[1..], ip)
      case None => None
      case Some(i) => Some(i + 1)
  }

  /**
   * The checks before the `try` block of `sendCommand` and `sendCommandFromQueue`:
   * a falsy floor, quantity, position or machine id is a 400, an unknown machine
   * a 404, a machine without a connection a 500; otherwise the socket to use.
   */
  function Admit(floor: nat, qty: nat, position: nat, id: string, reg: Registry): (r: Result<nat, HttpError>)
    ensures r == Err(HttpError(400, MissingPayload)) <==> floor == 0 || qty == 0 || position == 0 || id == ""
    ensures r == Err(HttpError(404, MachineNotFound)) <==>
              floor != 0 && qty != 0 && position != 0 && id != "" && id !in reg.machines
    ensures r.Ok? <==>
              floor != 0 && qty != 0 && position != 0 && id != "" && id in reg.machines
              && reg.machines[id] in reg.connected
    ensures r.Ok? ==> r.value < |reg.connected| && reg.connected[r.value] == reg.machines[id]
    ensures r.Err? ==> r.error in {HttpError(400, MissingPayload), HttpError(404, MachineNotFound), HttpError(500, NotConnected)}
  {
    if floor == 0 || qty == 0 || position == 0 || id == "" then Err(HttpError(400, MissingPayload))
    else if id !in reg.machines then Err(HttpError(404, MachineNotFound))
    else match FindSocket(reg.connected, reg.machines[id])
      case None => Err(HttpError(500, NotConnected))
      case Some(i) => Ok(i)
  }

  /**
   * `sendCommand`: after the checks, the unseen status-check helper runs
   * (`attempt`, its reply text or the error it threw); any error becomes a 500
   * carrying its message.
   */
  function SendCommand(body: Body, reg: Registry, attempt: Result<string, Cause>): (r: Result<Reply, HttpError>)
    ensures r.Ok? <==>
              Truthy(body.floor) && Truthy(body.qty) && Truthy(body.position) && Filled(body.id)
              && body.id.value in reg.machines && reg.machines[body.id.value] in reg.connected && attempt.Ok?
    ensures r.Ok? ==> r.value == Dispensed(body.floor.value, body.position.value, attempt.value)
    ensures r == Err(HttpError(400, MissingPayload)) <==>
              !Truthy(body.floor) || !Truthy(body.qty) || !Truthy(body.position) || !Filled(body.id)
    ensures r.Err? && r.error.code != 500 ==> r.error.code == 400 || r.error.code == 404
  {
    var floor, qty, position, id := body.floor.GetOr(0), body.qty.GetOr(0), body.position.GetOr(0), body.id.GetOr("");
    match Admit(floor, qty, position, id, reg)
    case Err(e) => Err(e)
    case Ok(_) =>
      match attempt
      case Ok(data) => Ok(Dispensed(floor, position, data))
      case Err(cause) => Err(HttpError(500, Rethrown(cause)))
  }

  /**
   * `sendCommandFromQueue`: the same checks, then the shared check sequence on
   * the machine's socket; a status error and any other error both become a 500.
   */
  function SendCommandFromQueue(
    floor: nat, position: nat, qty: nat, machineId: string, reg: Registry,
    running: nat, door: Exchange, tray: Exchange, shelf: Exchange, reply: Option<string>
  ): (r: Outcome)
    ensures Admit(floor, qty, position, machineId, reg).Err? ==>
              r == Outcome([], Err(Admit(floor, qty, position, machineId, reg).error))
    ensures r.result.Ok? <==>
              Admit(floor, qty, position, machineId, reg).Ok?
              && Passed(door, PassStatuses) && Passed(tray, SideStatuses) && Passed(shelf, PassStatuses)
              && reply.Some?
    ensures r.result.Ok? ==> r.result.value == Dispensed(floor, position, reply.value)
    ensures r.result.Ok? ==> |r.sent| == 4 && r.sent[3] == Frame(floor, position, qty, 1, SideFor(StatusOf(tray.raw)), running)
  {
    match Admit(floor, qty, position, machineId, reg)
    case Err(e) => Outcome([], Err(e))
    case Ok(_) =>
      var shared := CheckMachineStatusShared(Item(floor, position, qty), running, door, tray, shelf, reply);
      SharedDispenses(Item(floor, position, qty), running, door, tray, shelf, reply);
      match shared.result
      case Ok(res) => Outcome(shared.sent, Ok(Dispensed(floor, position, res.data)))
      case Err(e) => Outcome(shared.sent, Err(HttpError(500, Rethrown(Status(e)))))
  }

  /** `toUpperCase` on the letters a to z; every other character is left as it is. */
  function UpperChar(c: char): (u: char)
    ensures !('a' <= u <= 'z')
    ensures 'A' <= c <= 'Z' ==> u == c
  {
    if 'a' <= c <= 'z' then (c as int - 32) as char else c
  }

  function ToUpper(s: string): (u: string)
    ensures |u| == |s|
    ensures forall i :: 0 <= i < |s| ==> u[i] == UpperChar(s[i])
  {
    seq(|s|, i requires 0 <= i < |s| => UpperChar(s[i]))
  }

  /** Every member name of the command enum has a lower-case second letter. */
  lemma KeysHaveLowercase(c: PlcCommand)
    ensures |Key(c)| >= 2 && 'a' <= Key(c)[1] <= 'z'
  {
  }

  /**
   * `PlcCommand[command.toUpperCase()]` finds nothing, whatever the command:
   * the enum's member names all contain lower-case letters and the upper-cased
   * key has none.
   */
  lemma UpperKeyMisses(command: string)
    ensures LookupKey(ToUpper(command)) == None
  {
    var key := ToUpper(command);
    forall c ensures Key(c) != key {
      KeysHaveLowercase(c);
      if |key| >= 2 {
        assert !('a' <= key[1] <= 'z');
      }
    }
  }

  /**
   * Lines 61-100 of `sendCommandM` once a command is known: ShowModules needs
   * floor, position and quantity (0 allowed) and is encoded in full at colour 0;
   * every other command is a simple frame. The running-number lookup comes
   * before the socket check, and only the first socket is ever used.
   */
  function Dispatch(plcCmd: PlcCommand, body: Body, reg: Registry, running: Result<nat, Cause>, reply: Option<string>)
    : (r: Outcome)
    ensures |r.sent| <= 1
    ensures plcCmd == ShowModules && (body.floor.None? || body.position.None? || body.qty.None?) ==>
              r == Outcome([], Err(HttpError(400, MissingModuleParams)))
    ensures |r.sent| == 1 <==>
              (plcCmd == ShowModules ==> body.floor.Some? && body.position.Some? && body.qty.Some?)
              && running.Ok? && |reg.connected| > 0
    ensures |r.sent| == 1 && plcCmd == ShowModules ==>
              r.sent[0] == Frame(body.floor.value, body.position.value, body.qty.value, 0, ShowModules, running.value)
    ensures |r.sent| == 1 && plcCmd != ShowModules ==>
              r.sent[0] == SimpleFrame(plcCmd, running.value)
    ensures r.result.Ok? <==> |r.sent| == 1 && reply.Some?
    ensures |r.sent| == 1 && reply.None? ==> r.result == Err(HttpError(504, NoResponse))
  {
    if plcCmd == ShowModules && (body.floor.None? || body.position.None? || body.qty.None?) then
      Outcome([], Err(HttpError(400, MissingModuleParams)))
    else match running
      case Err(cause) => Outcome([], Err(HttpError(500, Rethrown(cause))))
      case Ok(n) =>
        if |reg.connected| == 0 then Outcome([], Err(HttpError(500, NotConnected)))
        else
          var frame :=
            if plcCmd == ShowModules then Frame(body.floor.value, body.position.value, body.qty.value, 0, plcCmd, n)
            else SimpleFrame(plcCmd, n);
          match reply
          case None => Outcome([frame], Err(HttpError(504, NoResponse)))
          case Some(raw) => Outcome([frame], Ok(Sent(ToUpper(body.command.GetOr("")), raw)))
  }

  /**
   * `sendCommandM`: the command is looked up by its upper-cased text among
   * the enum's member names. No upper-cased text is such a name, so every
   * request is rejected with 400 "Invalid command", before the
   * running-number lookup, any socket access or any frame.
   */
  function SendCommandM(body: Body, reg: Registry, running: Result<nat, Cause>, reply: Option<string>): (r: Outcome)
    ensures r == Outcome([], Err(HttpError(400, BadCommand)))
  {
    var plcCmd := if body.command.Some? then UpperKeyMisses(body.command.value); LookupKey(ToUpper(body.command.value)) else None;
    match plcCmd
    case None => Outcome([], Err(HttpError(400, BadCommand)))
    case Some(cmd) => Dispatch(cmd, body, reg, running, reply)
  }

  /**
   * `sendCommandM` as evidently intended: the upper-cased command is read as
   * a mode token (`m32` becomes `M32`, as the ShowModules message spells it).
   */
  function SendCommandMByCode(body: Body, reg: Registry, running: Result<nat, Cause>, reply: Option<string>): (r: Outcome)
    ensures body.command.None? ==> r == Outcome([], Err(HttpError(400, BadCommand)))
    ensures body.command.Some? ==>
              (r == Outcome([], Err(HttpError(400, BadCommand))) <==> forall c :: Code(c) != ToUpper(body.command.value))
    ensures forall c :: body.command == Some(Code(c)) ==> r == Dispatch(c, body, reg, running, reply)
  {
    var plcCmd := if body.command.Some? then CommandOfCode(ToUpper(body.command.value)) else None;
    match plcCmd
    case None => Outcome([], Err(HttpError(400, BadCommand)))
    case Some(cmd) => Dispatch(cmd, body, reg, running, reply)
  }

  /**
   * With the token lookup every command is reachable, in either case: a
   * request naming `M32` or `m32` is dispatched as ShowModules, and so on.
   */
  lemma ByCodeReachesEvery(c: PlcCommand, body: Body, reg: Registry, running: Result<nat, Cause>, reply: Option<string>)
    requires body.command == Some(Code(c)) || body.command == Some(['m'] + Code(c)[1..])
    ensures SendCommandMByCode(body, reg, running, reply) == Dispatch(c, body, reg, running, reply)
  {
    var code := Code(c);
    assert |code| == 3 && code[0] == 'M' && '0' <= code[1] <= '9' && '0' <= code[2] <= '9';
    var u := ToUpper(body.command.value);
    assert u == code by {
      assert |u| == 3;
      assert u[0] == 'M' && u[1] == code[1] && u[2] == code[2];
    }
  }

  /** Had the lookup used the member names as written, every command would reach its dispatch. */
  lemma LookupByName(c: PlcCommand)
    ensures LookupKey(Key(c)) == Some(c)
    ensures LookupKey(ToUpper(Key(c))) == None
  {
    UpperKeyMisses(Key(c));
  }
}

=== FILE: plc_types.dfy ===
/**
 * The cabinet's command modes and status codes (`PlcCommand`, `PlcStatus`) and
 * the kinds of `PLCStatusError` the check sequence raises.
 */
module PlcTypes {
  import opened Wrappers
  import opened Decimal

  /** The device number every frame carries, and its decimal text `${device}`. */
  const Device: nat := 4500
  const DeviceText: string := "4500"

  /** A command mode; on the wire it is the three-character token `Code(c)`. */
  datatype PlcCommand =
    | DispenseRight
    | DispenseLeft
    | CheckDoor
    | CheckTray
    | CheckShelf
    | Reboot
    | Reset
    | ShowModules
    | HideModules
    | UnlockRight
    | UnlockLeft
    | OffRight
    | OffLeft

  /** The enum member's value: the mode token written into a frame. */
  function Code(c: PlcCommand): string {
    match c
    case DispenseRight => "M01"
    case DispenseLeft => "M02"
    case CheckDoor => "M38"
    case CheckTray => "M39"
    case CheckShelf => "M40"
    case Reboot => "M30"
    case Reset => "M31"
    case ShowModules => "M32"
    case HideModules => "M33"
    case UnlockRight => "M34"
    case UnlockLeft => "M35"
    case OffRight => "M36"
    case OffLeft => "M37"
  }

  /** The enum member's name, the key under which `PlcCommand[key]` finds it. */
  function Key(c: PlcCommand): string {
    match c
    case DispenseRight => "DispenseRight"
    case DispenseLeft => "DispenseLeft"
    case CheckDoor => "CheckDoor"
    case CheckTray => "CheckTray"
    case CheckShelf => "CheckShelf"
    case Reboot => "Reboot"
    case Reset => "Reset"
    case ShowModules => "ShowModules"
    case HideModules => "HideModules"
    case UnlockRight => "UnlockRight"
    case UnlockLeft => "UnlockLeft"
    case OffRight => "OffRight"
    case OffLeft => "OffLeft"
  }

  /** `PlcCommand[key]`: the member whose name is `key`, if any (a string enum has no reverse mapping). */
  function LookupKey(key: string): (r: Option<PlcCommand>)
    ensures r.Some? ==> Key(r.value) == key
    ensures forall c :: Key(c) == key ==> r == Some(c)
  {
    if key == "DispenseRight" then Some(DispenseRight)
    else if key == "DispenseLeft" then Some(DispenseLeft)
    else if key == "CheckDoor" then Some(CheckDoor)
    else if key == "CheckTray" then Some(CheckTray)
    else if key == "CheckShelf" then Some(CheckShelf)
    else if key == "Reboot" then Some(Reboot)
    else if key == "Reset" then Some(Reset)
    else if key == "ShowModules" then Some(ShowModules)
    else if key == "HideModules" then Some(HideModules)
    else if key == "UnlockRight" then Some(UnlockRight)
    else if key == "UnlockLeft" then Some(UnlockLeft)
    else if key == "OffRight" then Some(OffRight)
    else if key == "OffLeft" then Some(OffLeft)
    else None
  }

  /** The member whose mode token is `token`, if any: the reading side of `Code`. */
  function CommandOfCode(token: string): (r: Option<PlcCommand>)
    ensures r.Some? ==> Code(r.value) == token
    ensures forall c :: Code(c) == token ==> r == Some(c)
  {
    if token == "M01" then Some(DispenseRight)
    else if token == "M02" then Some(DispenseLeft)
    else if token == "M38" then Some(CheckDoor)
    else if token == "M39" then Some(CheckTray)
    else if token == "M40" then Some(CheckShelf)
    else if token == "M30" then Some(Reboot)
    else if token == "M31" then Some(Reset)
    else if token == "M32" then Some(ShowModules)
    else if token == "M33" then Some(HideModules)
    else if token == "M34" then Some(UnlockRight)
    else if token == "M35" then Some(UnlockLeft)
    else if token == "M36" then Some(OffRight)
    else if token == "M37" then Some(OffLeft)
    else None
  }

  /** `parseInt(mode.slice(1))`: the numeric mode that enters the checksum. */
  function ModeValue(c: PlcCommand): (v: nat)
    ensures v < 100
    ensures Code(c) == "M" + Pad(v, 2)
  {
    var token := Code(c);
    var digits := token[1..];
    assert AllDigits(digits);
    PadRead(digits);
    ReadBound(digits);
    assert token == "M" + digits;
    Read(digits)
  }

  /** Every mode token is `M` followed by two digits, and no two members share one. */
  lemma CodesWellFormed()
    ensures forall c :: |Code(c)| == 3 && Code(c)[0] == 'M' && AllDigits(Code(c)[1..])
    ensures forall c, d :: Code(c) == Code(d) ==> c == d
  {
    forall c ensures Code(c) == "M" + Pad(ModeValue(c), 2) {
    }
    forall c, d | Code(c) == Code(d) ensures c == d {
      assert CommandOfCode(Code(c)) == Some(c);
    }
  }

  /** The numeric modes of the two dispense sides and of the check, unlock and lights-off commands. */
  lemma ModeValues()
    ensures ModeValue(DispenseRight) == 1 && ModeValue(DispenseLeft) == 2
    ensures ModeValue(CheckDoor) == 38 && ModeValue(CheckTray) == 39 && ModeValue(CheckShelf) == 40
    ensures ModeValue(UnlockRight) == 34 && ModeValue(UnlockLeft) == 35
    ensures ModeValue(OffRight) == 36 && ModeValue(OffLeft) == 37
  {
    DispenseModes();
    CheckModes();
    DoorModes();
  }

  lemma DispenseModes()
    ensures ModeValue(DispenseRight) == 1 && ModeValue(DispenseLeft) == 2
  {
    ModeValueIs(DispenseRight, "01", 1);
    ModeValueIs(DispenseLeft, "02", 2);
  }

  lemma CheckModes()
    ensures ModeValue(CheckDoor) == 38 && ModeValue(CheckTray) == 39 && ModeValue(CheckShelf) == 40
  {
    ModeValueIs(CheckDoor, "38", 38);
    ModeValueIs(CheckTray, "39", 39);
    ModeValueIs(CheckShelf, "40", 40);
  }

  lemma DoorModes()
    ensures ModeValue(UnlockRight) == 34 && ModeValue(UnlockLeft) == 35
    ensures ModeValue(OffRight) == 36 && ModeValue(OffLeft) == 37
  {
    ModeValueIs(UnlockRight, "34", 34);
    ModeValueIs(UnlockLeft, "35", 35);
    ModeValueIs(OffRight, "36", 36);
    ModeValueIs(OffLeft, "37", 37);
  }

  /** A command whose token is `M` and the two digits `d` has their value as its mode number. */
  lemma ModeValueIs(c: PlcCommand, d: string, v: nat)
    requires Code(c) == "M" + d && |d| == 2 && IsDigit(d[0]) && IsDigit(d[1])
    requires v == DigitValue(d[0]) * 10 + DigitValue(d[1])
    ensures ModeValue(c) == v
  {
    assert Code(c)[1..] == d;
    assert d[..1][..0] == [];
  }

  /** Named status codes (`PlcStatus`). */
  datatype PlcStatus = Success | DispenseLeftReady | DispenseRightReady | LightsOffRight | FullBoth | Error

  function StatusCode(s: PlcStatus): string {
    match s
    case Success => "30"
    case DispenseLeftReady => "35"
    case DispenseRightReady => "34"
    case LightsOffRight => "36"
    case FullBoth => "37"
    case Error => "33"
  }

  /** The kinds of `PLCStatusError` raised while talking to the cabinet. */
  datatype StatusError =
    | NotReady(cmd: PlcCommand, status: string)       // a status in the fail list
    | UnknownStatus(cmd: PlcCommand, status: string)  // a status in neither list
    | CheckFailed(cmd: PlcCommand)                    // any other error during a check, rewrapped
    | CheckNoReply                                    // a check got no reply within 5 s
    | DispenseNoReply                                 // the dispense frame got no reply within 5 s
}

=== FILE: pres_orders.dfy ===
/**
 * The order-building step of `createPresService`: keep the prescription
 * lines meant for the `ADD` cabinet, refuse a prescription already on file,
 * turn each line into a `ready` order whose floor and position are parsed
 * from the bin location, and sort the orders by floor.
 */
module PresOrders {
  import opened Wrappers
  import opened Decimal

  /** A prescription line as the hospital system sends it (the fields the step reads). */
  datatype Line = Line(rowId: string, presNo: string, itemCode: string, qty: int, machine: string, binLocation: string)

  /** An order as built from a line; `None` for a floor or position stands for `NaN`. */
  datatype Planned = Planned(
    id: string, prescriptionId: string, itemId: string, qty: int, status: string,
    floor: Option<nat>, position: Option<nat>, slot: Option<string>)

  /** The longest run of digits at the front of `s`. */
  function DigitRun(s: string): (r: string)
    ensures AllDigits(r) && r <= s
    ensures |r| < |s| ==> !IsDigit(s[|r|])
  {
    if |s| == 0 || !IsDigit(s[0]) then [] else [s[0]] + DigitRun(s[1..])
  }

  /** `0x` or `0X` at the front: `parseInt` without a radix then reads the rest as hexadecimal. */
  predicate HexPrefixed(s: string) {
    |s| >= 2 && s[0] == '0' && (s[1] == 'x' || s[1] == 'X')
  }

  predicate IsHexDigit(c: char) {
    IsDigit(c) || 'a' <= c <= 'f' || 'A' <= c <= 'F'
  }

  predicate AllHex(s: string) {
    forall i :: 0 <= i < |s| ==> IsHexDigit(s[i])
  }

  function HexValue(c: char): (d: nat)
    requires IsHexDigit(c)
    ensures d < 16
    ensures IsDigit(c) ==> d == DigitValue(c)
  {
    if IsDigit(c) then DigitValue(c) else if 'a' <= c <= 'f' then (c as int) - 87 else (c as int) - 55
  }

  /** The value of a run of hexadecimal digits. */
  function ReadHex(s: string): nat
    requires AllHex(s)
  {
    if |s| == 0 then 0 else ReadHex(s[..|s| - 1]) * 16 + HexValue(s[|s| - 1])
  }

  /** The longest run of hexadecimal digits at the front of `s`. */
  function HexRun(s: string): (r: string)
    ensures AllHex(r) && r <= s
    ensures |r| < |s| ==> !IsHexDigit(s[|r|])
  {
    if |s| == 0 || !IsHexDigit(s[0]) then [] else [s[0]] + HexRun(s[1..])
  }

  /**
   * `parseInt(s)` on text without leading blanks or sign: after a `0x` or
   * `0X` prefix the value of the hexadecimal digits that follow it, otherwise
   * the value of the leading decimal digits; `NaN` when there are none.
   */
  function ParseInt(s: string): (r: Option<nat>)
    ensures HexPrefixed(s) ==> (r.None? <==> |s| == 2 || !IsHexDigit(s[2]))
    ensures !HexPrefixed(s) ==> (r.None? <==> |s| == 0 || !IsDigit(s[0]))
  {
    if HexPrefixed(s) then
      var run := HexRun(s[2..]);
      if |run| == 0 then None else Some(ReadHex(run))
    else
      var run := DigitRun(s);
      if |run| == 0 then None else Some(Read(run))
  }

  /**
   * The digits of a number followed by text that does not start with a digit
   * parse back to the number, unless the number is 0 and the text starts with
   * `x` or `X`, which makes a hexadecimal prefix.
   */
  lemma ParseShow(n: nat, t: string)
    requires |t| == 0 || !IsDigit(t[0])
    requires !(n == 0 && |t| > 0 && (t[0] == 'x' || t[0] == 'X'))
    ensures ParseInt(Show(n) + t) == Some(n)
  {
    var a := Show(n);
    if a[0] == '0' {
      assert |a| == 1;
      assert n == 0;
      assert (a + t)[1..] == t;
    }
    assert !HexPrefixed(a + t);
    RunOfDigits(a, t);
    ReadShow(n);
  }

  /**
   * A run of decimal digits, leading zeros allowed, followed by text that does
   * not continue it, parses as the run's value, unless the run is `0` and the
   * text starts with `x` or `X`, which makes a hexadecimal prefix.
   */
  lemma ParseDigits(a: string, t: string)
    requires |a| > 0 && AllDigits(a) && (|t| == 0 || !IsDigit(t[0]))
    requires !(a == "0" && |t| > 0 && (t[0] == 'x' || t[0] == 'X'))
    ensures ParseInt(a + t) == Some(Read(a))
  {
    if |a| >= 2 {
      assert (a + t)[1] == a[1];
    } else if a[0] == '0' && |t| > 0 {
      assert a == "0";
      assert (a + t)[1] == t[0];
    }
    assert !HexPrefixed(a + t);
    RunOfDigits(a, t);
  }

  /** A hexadecimal prefix followed by hexadecimal digits, and text that does not continue them, parses as their value. */
  lemma ParseHex(x: char, a: string, t: string)
    requires x == 'x' || x == 'X'
    requires |a| > 0 && AllHex(a) && (|t| == 0 || !IsHexDigit(t[0]))
    ensures ParseInt(['0', x] + (a + t)) == Some(ReadHex(a))
  {
    var s := ['0', x] + (a + t);
    assert s[0] == '0' && s[1] == x;
    assert s[2..] == a + t;
    RunOfHex(a, t);
    assert HexRun(s[2..]) == a;
  }

  /** A hexadecimal prefix followed by nothing but hexadecimal digits parses as their value. */
  lemma ParseHexAll(s: string, x: char, a: string)
    requires x == 'x' || x == 'X'
    requires |a| > 0 && AllHex(a) && s == ['0', x] + a
    ensures ParseInt(s) == Some(ReadHex(a))
  {
    ParseHex(x, a, "");
    assert a + "" == a;
  }

  /** The leading hexadecimal run of `a + t` is `a` when `a` is all hexadecimal digits and `t` does not continue them. */
  lemma {:induction false} RunOfHex(a: string, t: string)
    requires AllHex(a) && (|t| == 0 || !IsHexDigit(t[0]))
    ensures HexRun(a + t) == a
    decreases |a|
  {
    if |a| > 0 {
      assert (a + t)[0] == a[0];
      assert (a + t)[1..] == a[1..] + t;
      RunOfHex(a[1..], t);
    } else {
      assert a + t == t;
    }
  }

  /** The leading run of `a + t` is `a` when `a` is all digits and `t` does not start with one. */
  lemma {:induction false} RunOfDigits(a: string, t: string)
    requires AllDigits(a) && (|t| == 0 || !IsDigit(t[0]))
    ensures DigitRun(a + t) == a
    decreases |a|
  {
    if |a| > 0 {
      assert (a + t)[0] == a[0];
      assert (a + t)[1..] == a[1..] + t;
      RunOfDigits(a[1..], t);
    } else {
      assert a + t == t;
    }
  }

  /** `substring(0, 1)` and `substring(1)`: the first character and the rest, empty when absent. */
  function Head(s: string): (r: string)
    ensures |r| <= 1 && r <= s
  {
    if |s| == 0 then "" else s[..1]
  }

  function Rest(s: string): (r: string)
    ensures Head(s) + r == s
  {
    if |s| == 0 then "" else s[1..]
  }

  /**
   * The order built from one line: id `ORD-` and the row id, status `ready`,
   * no slot. A bin location written as a floor digit followed by a position
   * number yields that floor and position; a bin location that does not
   * start with a digit yields no floor (`NaN`).
   */
  function ToOrder(l: Line): (r: Planned)
    ensures r.prescriptionId == l.presNo && r.itemId == l.itemCode && r.qty == l.qty
    ensures r.id == "ORD-" + l.rowId && r.status == "ready" && r.slot.None?
    ensures forall floor: nat, position: nat ::
              WrittenAs(l.binLocation, floor, position) ==> r.floor == Some(floor) && r.position == Some(position)
    ensures r.floor.None? <==> |l.binLocation| == 0 || !IsDigit(l.binLocation[0])
  {
    var bin := l.binLocation;
    BinLayout(bin);
    Planned("ORD-" + l.rowId, l.presNo, l.itemCode, l.qty, "ready", ParseInt(Head(bin)), ParseInt(Rest(bin)), None)
  }

  /** A bin location written as the floor's digit followed by the position's decimal text. */
  predicate WrittenAs(bin: string, floor: nat, position: nat) {
    floor < 10 && bin == [DigitChar(floor)] + Show(position)
  }

  /** What `parseInt` makes of the two halves of a bin location. */
  lemma BinLayout(bin: string)
    ensures forall floor: nat, position: nat ::
              WrittenAs(bin, floor, position) ==> ParseInt(Head(bin)) == Some(floor) && ParseInt(Rest(bin)) == Some(position)
    ensures ParseInt(Head(bin)).None? <==> |bin| == 0 || !IsDigit(bin[0])
  {
    forall floor: nat, position: nat | WrittenAs(bin, floor, position)
      ensures ParseInt(Head(bin)) == Some(floor) && ParseInt(Rest(bin)) == Some(position)
    {
      BinParts(bin, floor, position);
    }
  }

  /** The two halves of a bin location written as a floor digit followed by a position number. */
  lemma BinParts(bin: string, floor: nat, position: nat)
    requires floor < 10 && bin == [DigitChar(floor)] + Show(position)
    ensures ParseInt(Head(bin)) == Some(floor) && ParseInt(Rest(bin)) == Some(position)
  {
    assert Head(bin) == [DigitChar(floor)];
    assert Rest(bin) == Show(position);
    ParseShow(floor, "");
    assert Show(floor) + "" == [DigitChar(floor)];
    ParseShow(position, "");
    assert Show(position) + "" == Show(position);
  }

  /**
   * A bin location of a floor digit followed by a run of decimal digits, leading
   * zeros allowed, and any text that does not continue the run, gets that floor
   * and the run's value as position (`105` is floor 1, position 5; `12A` is
   * floor 1, position 2).
   */
  lemma DigitPosition(l: Line, floor: nat, a: string, t: string)
    requires floor < 10 && |a| > 0 && AllDigits(a) && (|t| == 0 || !IsDigit(t[0]))
    requires !(a == "0" && |t| > 0 && (t[0] == 'x' || t[0] == 'X'))
    requires |l.binLocation| > 0 && l.binLocation[0] == DigitChar(floor) && l.binLocation[1..] == a + t
    ensures ToOrder(l).floor == Some(floor) && ToOrder(l).position == Some(Read(a))
  {
    HeadDigit(l.binLocation, floor);
    RestDigits(l.binLocation, a, t);
  }

  /** The position half of a bin location that continues with a run of decimal digits. */
  lemma RestDigits(bin: string, a: string, t: string)
    requires |a| > 0 && AllDigits(a) && (|t| == 0 || !IsDigit(t[0]))
    requires !(a == "0" && |t| > 0 && (t[0] == 'x' || t[0] == 'X'))
    requires |bin| > 0 && bin[1..] == a + t
    ensures ParseInt(Rest(bin)) == Some(Read(a))
  {
    ParseDigits(a, t);
  }

  /** Worked example: bin location `105` is floor 1, position 5. */
  lemma PaddedExample(l: Line)
    requires l.binLocation == "105"
    ensures ToOrder(l).floor == Some(1) && ToOrder(l).position == Some(5)
  {
    assert l.binLocation[1..] == "05" + "";
    assert Read("05") == 5 by { assert "05"[..1] == "0"; assert "0"[..0] == []; }
    DigitPosition(l, 1, "05", "");
  }

  /** Worked example: bin location `12A` is floor 1, position 2. */
  lemma TrailingExample(l: Line)
    requires l.binLocation == "12A"
    ensures ToOrder(l).floor == Some(1) && ToOrder(l).position == Some(2)
  {
    assert l.binLocation[1..] == "2" + "A";
    assert Read("2") == 2 by { assert "2"[..0] == []; }
    DigitPosition(l, 1, "2", "A");
  }

  /** A bin location whose position half starts `0x` or `0X` gets a hexadecimal position. */
  lemma HexPosition(l: Line, floor: nat, x: char, a: string)
    requires floor < 10 && (x == 'x' || x == 'X') && |a| > 0 && AllHex(a)
    requires |l.binLocation| > 0 && l.binLocation[0] == DigitChar(floor) && l.binLocation[1..] == ['0', x] + a
    ensures ToOrder(l).floor == Some(floor) && ToOrder(l).position == Some(ReadHex(a))
  {
    HeadDigit(l.binLocation, floor);
    RestHex(l.binLocation, x, a);
  }

  /** The floor half of a bin location that starts with a digit. */
  lemma HeadDigit(bin: string, floor: nat)
    requires floor < 10 && |bin| > 0 && bin[0] == DigitChar(floor)
    ensures ParseInt(Head(bin)) == Some(floor)
  {
    assert Head(bin) == [DigitChar(floor)];
    FloorDigit(floor);
  }

  /** The position half of a bin location that continues with `0x` or `0X` and hexadecimal digits. */
  lemma RestHex(bin: string, x: char, a: string)
    requires (x == 'x' || x == 'X') && |a| > 0 && AllHex(a)
    requires |bin| > 0 && bin[1..] == ['0', x] + a
    ensures ParseInt(Rest(bin)) == Some(ReadHex(a))
  {
    ParseHexAll(Rest(bin), x, a);
  }

  /** Worked examples: `parseInt("0x")` is `NaN`, `parseInt("0x5")` is 5, and bin location `10x5` is floor 1, position 5. */
  lemma HexExamples(l: Line)
    requires l.binLocation == "10x5"
    ensures ParseInt("0x").None? && ParseInt("0x5") == Some(5)
    ensures ToOrder(l).floor == Some(1) && ToOrder(l).position == Some(5)
  {
    assert "0x5" == ['0', 'x'] + "5";
    ParseHexAll("0x5", 'x', "5");
    assert ReadHex("5") == 5 by { assert "5"[..0] == []; }
    assert l.binLocation[1..] == ['0', 'x'] + "5";
    HexPosition(l, 1, 'x', "5");
  }

  /** A single digit parses as its value. */
  lemma FloorDigit(floor: nat)
    requires floor < 10
    ensures ParseInt([DigitChar(floor)]) == Some(floor)
  {
    ParseShow(floor, "");
    assert Show(floor) + "" == [DigitChar(floor)];
  }

  /** The lines for the `ADD` cabinet, in their order. */
  function OnAdd(lines: seq<Line>): (r: seq<Line>)
    ensures |r| <= |lines|
    ensures forall x :: x in r <==> x in lines && x.machine == "ADD"
  {
    if |lines| == 0 then []
    else
      var rest := OnAdd(lines[1..]);
      assert forall x :: x in lines <==> x == lines[0] || x in lines[1..];
      if lines[0].machine == "ADD" then [lines[0]] + rest else rest
  }

  /** The comparator `a.Floor - b.Floor` is negative: both floors are numbers and `a`'s is lower. */
  predicate Below(a: Planned, b: Planned) {
    a.floor.Some? && b.floor.Some? && a.floor.value < b.floor.value
  }

  /** `x` placed after the leading orders below it. */
  function Insert(x: Planned, s: seq<Planned>): (r: seq<Planned>)
    ensures multiset(r) == multiset(s) + multiset{x}
  {
    if |s| == 0 then [x]
    else if Below(s[0], x) then
      assert s == [s[0]] + s[1..];
      [s[0]] + Insert(x, s[1..])
    else [x] + s
  }

  /** The orders sorted by floor, one insertion at a time. */
  function SortByFloor(s: seq<Planned>): (r: seq<Planned>)
    ensures multiset(r) == multiset(s)
  {
    if |s| == 0 then []
    else
      assert s == [s[0]] + s[1..];
      Insert(s[0], SortByFloor(s[1..]))
  }

  /** Every floor parsed. */
  predicate AllParsed(s: seq<Planned>) {
    forall i :: 0 <= i < |s| ==> s[i].floor.Some?
  }

  /** Floors never go down from one order to the next. */
  predicate FloorSorted(s: seq<Planned>) {
    AllParsed(s) && forall i :: 0 <= i < |s| - 1 ==> s[i].floor.value <= s[i + 1].floor.value
  }

  /** A sorted run stays sorted under a first order no higher than its head. */
  lemma ConsSorted(a: Planned, rest: seq<Planned>)
    requires FloorSorted(rest) && a.floor.Some?
    requires |rest| > 0 ==> a.floor.value <= rest[0].floor.value
    ensures FloorSorted([a] + rest)
  {
    var r := [a] + rest;
    forall i | 0 <= i < |r| ensures r[i].floor.Some? {
      if i > 0 {
        assert r[i] == rest[i - 1];
      }
    }
    forall i | 0 <= i < |r| - 1 ensures r[i].floor.value <= r[i + 1].floor.value {
      if i > 0 {
        assert r[i] == rest[i - 1] && r[i + 1] == rest[i];
      }
    }
  }

  /** The tail of a sorted run is sorted. */
  lemma TailSorted(s: seq<Planned>)
    requires FloorSorted(s) && |s| > 0
    ensures FloorSorted(s[1..])
    ensures |s| > 1 ==> s[0].floor.value <= s[1].floor.value
  {
    var tail := s[1..];
    forall i | 0 <= i < |tail| ensures tail[i].floor.Some? {
      assert tail[i] == s[i + 1];
    }
    forall i | 0 <= i < |tail| - 1 ensures tail[i].floor.value <= tail[i + 1].floor.value {
      assert tail[i] == s[i + 1] && tail[i + 1] == s[i + 2];
    }
  }

  /** Inserting an order with a floor into a sorted run keeps it sorted, and the head is the order or the old head. */
  lemma {:induction false} InsertSorted(x: Planned, s: seq<Planned>)
    requires FloorSorted(s) && x.floor.Some?
    ensures FloorSorted(Insert(x, s))
    ensures |s| > 0 ==> Insert(x, s)[0] == x || Insert(x, s)[0] == s[0]
    decreases |s|
  {
    if |s| == 0 {
      ConsSorted(x, []);
    } else if Below(s[0], x) {
      var tail := s[1..];
      TailSorted(s);
      InsertSorted(x, tail);
      var rest := Insert(x, tail);
      assert |tail| > 0 ==> rest[0] == x || rest[0] == s[1];
      ConsSorted(s[0], rest);
    } else {
      ConsSorted(x, s);
    }
  }

  /** When every floor parses, the orders come out in floor order. */
  lemma {:induction false} SortSorted(s: seq<Planned>)
    requires AllParsed(s)
    ensures FloorSorted(SortByFloor(s))
    decreases |s|
  {
    if |s| > 0 {
      var tail := s[1..];
      assert AllParsed(tail) by {
        forall i | 0 <= i < |tail| ensures tail[i].floor.Some? {
          assert tail[i] == s[i + 1];
        }
      }
      SortSorted(tail);
      InsertSorted(s[0], SortByFloor(tail));
    }
  }

  /** Why the step refuses a prescription. */
  datatype PlanError =
    | BeingDispensed  // 500: a prescription with this number is already on file
    | NotOnAdd        // 404: no line is for the `ADD` cabinet

  function StatusCode(e: PlanError): nat {
    if e.BeingDispensed? then 500 else 404
  }

  /** The orders built from lines, in line order. */
  function ToOrders(lines: seq<Line>): (r: seq<Planned>)
    ensures |r| == |lines| && forall i :: 0 <= i < |lines| ==> r[i] == ToOrder(lines[i])
  {
    seq(|lines|, i requires 0 <= i < |lines| => ToOrder(lines[i]))
  }

  /**
   * The step as written: the lookup of the prescription on file uses the
   * first `ADD` line's number, which is `undefined` when there is none, and a
   * filter on `undefined` matches any prescription; so the emptiness check
   * comes second.
   */
  function PlanOrders(lines: seq<Line>, onFile: set<string>): (r: Result<seq<Planned>, PlanError>)
  {
    var presList := OnAdd(lines);
    var taken := if |presList| == 0 then onFile != {} else presList[0].presNo in onFile;
    if taken then Err(BeingDispensed)
    else if |presList| == 0 then Err(NotOnAdd)
    else Ok(SortByFloor(ToOrders(presList)))
  }

  /**
   * What the step builds: a prescription whose number is not on file gets
   * one `ready` order per `ADD` line, rearranged by floor and in floor order
   * whenever every floor parses; a prescription on file is refused.
   */
  lemma PlanOrdersBuilds(lines: seq<Line>, onFile: set<string>)
    ensures var r := PlanOrders(lines, onFile);
      var presList := OnAdd(lines);
      && (r.Ok? <==> |presList| > 0 && presList[0].presNo !in onFile)
      && (|presList| > 0 && presList[0].presNo in onFile ==> r == Err(BeingDispensed))
      && (r.Ok? ==> multiset(r.value) == multiset(ToOrders(presList)))
      && (r.Ok? ==> forall o :: o in r.value ==> o.status == "ready" && o.slot.None?)
      && (r.Ok? && AllParsed(ToOrders(presList)) ==> FloorSorted(r.value))
  {
    var presList := OnAdd(lines);
    var orders := ToOrders(presList);
    if |presList| > 0 && presList[0].presNo !in onFile {
      var r := SortByFloor(orders);
      forall o | o in r ensures o.status == "ready" && o.slot.None? {
        assert multiset(r)[o] > 0;
        assert o in orders;
      }
      if AllParsed(orders) {
        SortSorted(orders);
      }
    }
  }

  /**
   * The refusal of an empty list, as written: with no `ADD` line at all the
   * answer is the 500 "being dispensed" as soon as any prescription is on
   * file, not the 404 "not found on ADD".
   */
  lemma EmptyListBeingDispensed()
    ensures PlanOrders([Line("1", "P9", "D1", 1, "ADM", "101")], {"P1"}) == Err(BeingDispensed)
  {
    assert OnAdd([Line("1", "P9", "D1", 1, "ADM", "101")]) == [];
  }

  /** The step as intended: a list without `ADD` lines is refused as not found, whatever is on file. */
  function PlanOrdersCorrected(lines: seq<Line>, onFile: set<string>): (r: Result<seq<Planned>, PlanError>)
  {
    var presList := OnAdd(lines);
    if |presList| == 0 then Err(NotOnAdd)
    else if presList[0].presNo in onFile then Err(BeingDispensed)
    else Ok(SortByFloor(ToOrders(presList)))
  }

  /**
   * The corrected step refuses as "being dispensed" exactly the
   * prescriptions whose number is on file, answers 404 exactly when no line
   * is for `ADD`, and otherwise agrees with the step as written.
   */
  lemma CorrectedRefusals(lines: seq<Line>, onFile: set<string>)
    ensures var r := PlanOrdersCorrected(lines, onFile);
      var presList := OnAdd(lines);
      && (r == Err(NotOnAdd) <==> forall x :: x in lines ==> x.machine != "ADD")
      && (r == Err(BeingDispensed) <==> |presList| > 0 && presList[0].presNo in onFile)
      && (|presList| > 0 ==> r == PlanOrders(lines, onFile))
  {
    var presList := OnAdd(lines);
    if |presList| > 0 {
      assert presList[0] in presList;
    }
  }
}

=== FILE: status_codes.dfy ===
/**
 * Status replies: extracting the two-character status that follows the first
 * `T` of a reply, `interpretPlcResponse`'s reading of it, and the success and
 * fail lists the check sequence classifies against.
 */
module StatusCodes {
  import opened Wrappers
  import opened PlcTypes

  /** The characters of `s` before the first `c`; all of `s` when it has none. */
  function UpTo(s: string, c: char): (p: string)
    ensures p <= s && c !in p
    ensures |p| < |s| ==> s[|p|] == c
  {
    if |s| == 0 || s[0] == c then [] else [s[0]] + UpTo(s[1..], c)
  }

  /** `s.substring(0, 2)` and `s.slice(0, 2)`: at most the first two characters. */
  function Take2(s: string): (r: string)
    ensures r <= s && |r| == if |s| < 2 then |s| else 2
  {
    if |s| < 2 then s else s[..2]
  }

  /**
   * `raw.split('T')[1]?.substring(0, 2)`: the text between the first `T` and
   * the next one (or the end), cut to two characters; absent when `raw` has no `T`.
   */
  function StatusField(raw: string): (r: Option<string>)
    ensures r.None? <==> 'T' !in raw
    ensures r.Some? ==> |r.value| <= 2 && 'T' !in r.value
  {
    var before := UpTo(raw, 'T');
    if |before| == |raw| then
      assert raw == before;
      None
    else
      var piece := UpTo(raw[|before| + 1..], 'T');
      Some(Take2(piece))
  }

  /** The status of a reply, `"00"` when it has no `T` (the `?? '00'` default). */
  function StatusOf(raw: string): (status: string)
    ensures |status| <= 2 && 'T' !in status
    ensures 'T' !in raw ==> status == "00"
  {
    StatusField(raw).GetOr("00")
  }

  /**
   * Partner of the extraction: a reply written as some `T`-free text, a `T`,
   * a `T`-free status and whatever follows yields that status, provided the
   * status is two characters long or is followed by the end or another `T`.
   */
  lemma StatusOfReply(prefix: string, status: string, rest: string)
    requires 'T' !in prefix && 'T' !in status && |status| <= 2
    requires |status| == 2 || rest == [] || rest[0] == 'T'
    ensures StatusField(prefix + "T" + status + rest) == Some(status)
  {
    assert prefix + "T" + status + rest == prefix + "T" + (status + rest);
    FieldAfterFirstT(prefix, status + rest);
    StatusPiece(status, rest);
  }

  /** The field is read from whatever follows the first `T`. */
  lemma FieldAfterFirstT(prefix: string, tail: string)
    requires 'T' !in prefix
    ensures StatusField(prefix + "T" + tail) == Some(Take2(UpTo(tail, 'T')))
  {
    var raw := prefix + "T" + tail;
    assert prefix + ("T" + tail) == raw;
    UpToStops(prefix, "T" + tail, 'T');
    assert raw[|prefix| + 1..] == tail;
  }

  /** A `T`-free status, cut off by its length or by the next `T`, is what `Take2` keeps. */
  lemma StatusPiece(status: string, rest: string)
    requires 'T' !in status && |status| <= 2
    requires |status| == 2 || rest == [] || rest[0] == 'T'
    ensures Take2(UpTo(status + rest, 'T')) == status
  {
    var piece := UpTo(status + rest, 'T');
    UpToKeeps(status, rest, 'T');
    if |status| < 2 {
      UpToStops(status, rest, 'T');
    } else {
      assert piece[..2] == status;
    }
  }

  /** `UpTo` runs to the first `c`: through a `c`-free prefix, stopping where `c` starts the rest. */
  lemma {:induction false} UpToStops(p: string, rest: string, c: char)
    requires c !in p && (rest == [] || rest[0] == c)
    ensures UpTo(p + rest, c) == p
  {
    if |p| > 0 {
      assert (p + rest)[1..] == p[1..] + rest;
      UpToStops(p[1..], rest, c);
    } else {
      assert p + rest == rest;
    }
  }

  /** `UpTo` keeps a `c`-free prefix whole. */
  lemma {:induction false} UpToKeeps(p: string, rest: string, c: char)
    requires c !in p
    ensures p <= UpTo(p + rest, c)
  {
    if |p| > 0 {
      assert (p + rest)[1..] == p[1..] + rest;
      UpToKeeps(p[1..], rest, c);
    }
  }

  /** What `interpretPlcResponse` reports for a status; each case names its own message. */
  datatype Reading =
    | BothDoorsLocked       // 30
    | LeftDoorLocked        // 31
    | RightDoorLocked       // 32
    | DoorsUnlocked         // 33
    | RightTrayEmpty        // 34
    | LeftTrayEmpty         // 35
    | RightLightsOff        // 36
    | TrayFull              // 37
    | CommandAccepted       // 91
    | DispenseSucceeded     // 92
    | ServerDisconnected    // 01
    | InvalidCommand        // 02
    | ChecksumError         // 03
    | Unrecognized(status: string)  // the "unknown status" message, which embeds the code

  /** The thirteen codes with a message of their own. */
  const KnownCodes: seq<string> :=
    ["30", "31", "32", "33", "34", "35", "36", "37", "91", "92", "01", "02", "03"]

  /** The status a reading reports. */
  function CodeOf(r: Reading): string {
    match r
    case BothDoorsLocked => "30"
    case LeftDoorLocked => "31"
    case RightDoorLocked => "32"
    case DoorsUnlocked => "33"
    case RightTrayEmpty => "34"
    case LeftTrayEmpty => "35"
    case RightLightsOff => "36"
    case TrayFull => "37"
    case CommandAccepted => "91"
    case DispenseSucceeded => "92"
    case ServerDisconnected => "01"
    case InvalidCommand => "02"
    case ChecksumError => "03"
    case Unrecognized(s) => s
  }

  /** The switch of `interpretPlcResponse`, on an extracted status. */
  function Interpret(status: string): (r: Reading)
    ensures CodeOf(r) == status
    ensures r.Unrecognized? <==> status !in KnownCodes
  {
    match status
    case "30" => BothDoorsLocked
    case "31" => LeftDoorLocked
    case "32" => RightDoorLocked
    case "33" => DoorsUnlocked
    case "34" => RightTrayEmpty
    case "35" => LeftTrayEmpty
    case "36" => RightLightsOff
    case "37" => TrayFull
    case "91" => CommandAccepted
    case "92" => DispenseSucceeded
    case "01" => ServerDisconnected
    case "02" => InvalidCommand
    case "03" => ChecksumError
    case _ => Unrecognized(status)
  }

  /** `interpretPlcResponse`: total on every reply text. */
  function InterpretPlcResponse(raw: string): Reading {
    Interpret(StatusOf(raw))
  }

  /** Distinct statuses never share a reading, so the thirteen known codes have distinct messages. */
  lemma InterpretInjective(a: string, b: string)
    ensures Interpret(a) == Interpret(b) ==> a == b
  {
  }

  /** Replies without a status marker, such as empty or garbled text, read as the unknown status 00. */
  lemma GarbledReplies()
    ensures StatusOf("") == "00" && StatusOf("garbage") == "00"
    ensures InterpretPlcResponse("") == Unrecognized("00")
    ensures StatusOf("xT") == ""
  {
    StatusOfReply("x", "", "");
  }

  /** `checkCommands` in the constants file: CheckDoor, CheckTray and CheckShelf, by their codes. */
  const CheckCommandCodes: seq<string> := ["M38", "M39", "M40"]

  /** `successStatuses` and `failStatuses` as the constants file lists them (36 twice). */
  const SuccessStatuses: seq<string> := ["34", "35", "36", "30", "20", "36", "37"]
  const FailStatuses: seq<string> := ["37", "33", "21", "22", "23", "24", "25", "26", "27", "31", "32"]

  /** The lists the check sequence itself declares and uses. */
  const QueueSuccessStatuses: seq<string> := ["30", "34", "35", "36", "20", "37"]
  const QueueFailStatuses: seq<string> := ["37", "33", "21", "22", "23", "24", "25", "26", "27", "31", "32"]

  /** Both copies of each list have the same members, and the two lists share exactly 37. */
  lemma StatusLists()
    ensures forall s :: s in SuccessStatuses <==> s in QueueSuccessStatuses
    ensures forall s :: s in FailStatuses <==> s in QueueFailStatuses
    ensures forall s :: s in SuccessStatuses && s in FailStatuses <==> s == "37"
    ensures CheckCommandCodes == [Code(CheckDoor), Code(CheckTray), Code(CheckShelf)]
  {
  }

  /** The named `PlcStatus` codes: all but Error are success statuses; Error is a fail status. */
  lemma NamedStatuses()
    ensures forall p :: StatusCode(p) in QueueSuccessStatuses <==> p != Error
    ensures StatusCode(Error) in QueueFailStatuses
    ensures forall p :: !Interpret(StatusCode(p)).Unrecognized?
  {
  }
}

=== FILE: wrappers.dfy ===
/** Failure-compatible wrappers shared by every module of the model. */
module Wrappers {

  /** A value that may be absent: JavaScript's `undefined`/`null` alongside a value. */
  datatype Option<+T> = None | Some(value: T) {

    /** Returns the value, or `default` when absent (the `??` operator). */
    function GetOr(default: T): T {
      match this
      case Some(v) => v
      case None => default
    }
  }

  /** The outcome of an operation that either yields a value or throws an error. */
  datatype Result<+R, +E> = Ok(value: R) | Err(error: E) {

    predicate IsFailure() {
      Err?
    }

    function PropagateFailure<U>(): Result<U, E>
      requires Err?
    {
      Err(error)
    }

    function Extract(): R
      requires Ok?
    {
      value
    }
  }
}
